=== FILE: README.md ===
# AI News Dashboard — a Dafny model of its decision rules

This project models the logic of the AI News Dashboard: a Streamlit page that fetches headlines from NewsAPI, scores each description with VADER and charts the label distribution, plus the `newsintel` package (pydantic schemas, placeholder search/scrape/analysis tools and a mock CrewAI crew).

One Dafny module stands for each source file:

| module | source |
|---|---|
| `Utils` | `utils.py` — `fetch_news`, `analyze_sentiment_vader`, `format_datetime` |
| `Dashboard` | `app.py` lines 51-130 — the fetch gate, the per-article loop, the tally, the result branches |
| `Schemas` | `src/newsintel/schemas.py` — field constraints, `AnalysisResult` |
| `Analyzer` | `src/newsintel/tools/analyzer.py` |
| `Search` | `src/newsintel/tools/search.py` |
| `Scraper` | `src/newsintel/tools/scraper.py` |
| `Crew` | `src/newsintel/crew.py` — `get_llm_config`, `NewsIntelCrew` |
| `Wrappers`, `Strings` | shared helpers: Option/Result, and Python's string and slice behaviour |

The shared helpers write Python's semantics out explicitly:
- `s[:n]` with a negative `n`;
- `str.join` and `in` on strings;
- `str(int)`;
- ASCII `lower()`;
- `str.isspace`.

Calls into foreign code are function-valued parameters:

| parameter | stands for |
|---|---|
| `send` | `requests.get` with JSON decoding, answering an `Outcome` |
| `vader` | VADER's compound score, or the exception it raises |
| `isoFormat` | `dateutil.isoparse` followed by `strftime` |
| `hashOf` | Python's `hash` |
| `fmt2` | the `:.2f` format |
| `now` | `datetime.now().isoformat()` |

The environment that `get_llm_config` reads is a `map<string, string>`.

Each pydantic model built as a value is a `Make…` function returning `Failure(ValidationError(fields))` when a field constraint fails. `AnalysisResult`, whose insights list is appended to in place, is a class instead: its constructor and the `CreateAnalysisResult` method take the place of the `Make…` function.

Imperative code stays imperative:
- `fetch_news` is a method whose branches return as the source's do; it has no loop, and it is proved equal to the specification function `FetchSpec`.
- The article loop and tally of `app.py`, and `batch_scrape`, are methods with loops and invariants. Each is proved against a specification function (`Described`, `Occurrences`, `Scraped`).
- `AnalysisResult` and `NewsIntelCrew` are classes whose methods update their fields.

## Model

| member | source | states |
|---|---|---|
| Strings.Take | src/newsintel/tools/analyzer.py:39 | Python's `s[:n]`: a prefix of length `min(n, len)` for `n >= 0` and `max(0, len + n)` for negative `n` |
| Strings.ContainsIsInfix | src/newsintel/tools/analyzer.py:116 | the recursive substring test used for `topic in text` holds exactly when the needle occurs somewhere in the text |
| Strings.JoinMentionsEachPart | src/newsintel/tools/search.py:76 | every part of a `sep.join(parts)` occurs in the joined string |
| Strings.JoinHasSeparator | src/newsintel/tools/search.py:76 | a `sep.join(parts)` of two or more parts contains the separator |
| Strings.NatToStringRoundTrip | src/newsintel/schemas.py:141 | the decimal rendering of a count parses back to the count |
| Utils.RequestFor | utils.py:40-46 | the request carries the topic, key, language and sort order, goes to the NewsAPI endpoint with a 15 s timeout, and its page size is `min(page_size, 100)` |
| Utils.Text | utils.py:38-83 | each message is its mark (info for no news, error otherwise) followed by the exact wording of its branch |
| Utils.InformationalIsDistinguishable | utils.py:58-83 | a message starts with the info mark exactly when it is the no-news notice; every other message starts with the error mark |
| Utils.ApiErrorNamesCodeAndMessage | utils.py:62 | the API error message contains the API's own code and message (None rendered as "None") |
| Utils.NoNewsNamesTopicAndLanguage | utils.py:60 | the no-news message names the topic and the language |
| Utils.NetworkErrorNamesDetail | utils.py:80-81 | the general network error message contains the exception text |
| Utils.UnexpectedErrorNamesDetail | utils.py:82-83 | the unexpected error message contains the exception text |
| Utils.HttpErrorNamesStatusAndReason | utils.py:73-74 | the HTTP error message contains the status code and the reason phrase |
| Utils.ServerErrorNamesStatus | utils.py:71-72 | the server error message contains the received status code |
| Utils.Messages | utils.py:47-85 | the error list holds at most one message, and one exactly when there is a notice |
| Utils.ClassifyBody | utils.py:55-64 | for an HTTP 200 body: status "ok" with a non-empty list returns exactly that list and no message; "ok" with an empty or missing list gives the no-news notice; any other status gives the API error with code and message; a non-JSON body gives the JSON error; JSON that is not an object gives the unexpected error with its text. Articles come back exactly when there is no message |
| Utils.StatusNotice | utils.py:65-74 | 400 gives the invalid-parameters message, 401 the invalid-key message and 429 the rate-limit message, each exactly for its code; 500 and up is a server error naming the status; any other non-200 status is an HTTP error naming status and reason |
| Utils.Classify | utils.py:50-83 | a 200 response is classified by its body; any other status by `StatusNotice`, with no articles; a timeout, a connection failure, any other network exception and any other exception each give their own message, the last two carrying the exception text. Articles exactly when no message |
| Utils.FetchSpec | utils.py:37-85 | without a key, no articles and the missing-key error; with one, the classification of what the transport answers to `RequestFor`. On every path exactly one of: articles non-empty with no message, or no articles with one message |
| Utils.NoKeyNoRequest | utils.py:37-38 | without a key the transport is never consulted: any two transports give the same missing-key answer |
| Utils.FetchNews | utils.py:32-85 | the imperative cascade returns what `FetchSpec` and `Messages` say. A request is sent exactly when a key is set, and its page size is `min(page_size, 100)`. Either articles with no error, or no articles with exactly one message |
| Utils.LabelFor | utils.py:107-112 | Positive exactly when score >= 0.05, Negative exactly when score <= -0.05, Neutral exactly when strictly between |
| Utils.AnalyzeSentimentVader | utils.py:94-115 | the label is the threshold label of the returned score. A non-string or whitespace-only text, gives (Neutral, 0.0) without consulting the analyzer; a scoring failure (an exception from `polarity_scores`) gives (Neutral, 0.0); otherwise the score is the compound score |
| Utils.BlankTextSkipsAnalyzer | utils.py:99-100 | blank text never reaches the analyzer: any two analyzers give (Neutral, 0.0) |
| Utils.BeforeFirst | utils.py:127 | `s.split(c)[0]` is a prefix of `s` without `c`, followed in `s` by `c` when shorter |
| Utils.FormatDatetime | utils.py:119-127 | "No Date" for None or ""; the formatted date when parsing succeeds; otherwise the prefix before the first 'T' |
| Utils.NoSeparatorKeepsText | utils.py:127 | an unparseable date without 'T' comes back whole |
| Dashboard.CardOf | app.py:73-108 | the title and source name, or "No Title" / "No Source" when missing; the date as `FormatDatetime` renders it; the article's own image, description and link, each shown exactly when truthy; and the given sentiment |
| Dashboard.Described | app.py:92-93 | the descriptions that are scored are non-empty and no more numerous than the articles |
| Dashboard.AllDescribedIffAllScored | app.py:91-99 | every article is scored exactly when every article has a truthy description |
| Dashboard.ShowArticle | app.py:70-108 | one pass of the loop: the article is scored exactly when its description is truthy, and its block shows that analysis |
| Dashboard.ShowArticles | app.py:70-110 | one block per article, in order. Labels and scores grow in lockstep, one per truthy description, each the VADER analysis of that description, so never more labels than articles |
| Dashboard.SentimentOf | app.py:93-99 | an article gets an analysis exactly when its description is truthy, and its label matches its score |
| Dashboard.OccurrencesPositive | app.py:115 | a label has a positive count exactly when it occurs |
| Dashboard.OccurrencesSum | app.py:115 | the three label counts add up to the number of labels |
| Dashboard.Tally | app.py:113-115 | `value_counts`: keys are exactly the labels that occur, each count is the number of occurrences, and the counts sum to `len(sentiments)` |
| Dashboard.Page | app.py:51-130 | fetches exactly when clicked with a non-empty topic; the enter-topic info exactly when the topic is empty; errors mean no cards; the distribution is produced exactly when a label was recorded, gives each label its number of occurrences and sums to the label count; the "no articles found" info never shows. After a fetch, the error banners are the messages of `FetchSpec`'s notice, there is one card per fetched article, each `CardOf` that article and its analysis, and the labels are the VADER labels of the fetched articles' truthy descriptions, in order |
| Schemas.MakeNewsSource | src/newsintel/schemas.py:25-39 | valid exactly when the name has 1..100 characters and the priority is in 1..10; each failing field is named |
| Schemas.SourceDefaults | src/newsintel/schemas.py:37-39 | with defaults only the name can fail, and the source starts enabled, at priority 1, without a key |
| Schemas.MakeNewsArticle | src/newsintel/schemas.py:53-77 | valid exactly when the title has 1..500 characters, the summary at most 2000 and the source at least 1; title and source failures are named |
| Schemas.MinimalArticle | tests/test_schemas.py:21-30 | a title and a source alone give an article with an empty summary and no tags |
| Schemas.MakeSentimentResult | src/newsintel/schemas.py:91-105 | valid exactly when the score is in [-1, 1] and the confidence in [0, 1] |
| Schemas.AnalysisResult.constructor | tests/test_schemas.py:51-56 | the default result has count 0, average 0.0 and empty lists, and is valid |
| Schemas.AnalysisResult.AddInsight | src/newsintel/schemas.py:126-132 | appends exactly the one insight at the end, leaves every other field unchanged, and keeps the result valid |
| Schemas.AnalysisResult.Summary | src/newsintel/schemas.py:134-144 | the summary starts with "Analyzed <count> articles. " |
| Schemas.SummaryMentionsAverage | src/newsintel/schemas.py:142 | the summary shows the average as the two-decimal format renders it |
| Schemas.SummaryMentions | tests/test_schemas.py:65-74 | the summary names the article count and each of the first five topics |
| Schemas.SummaryJoinsTopicsWithComma | src/newsintel/schemas.py:143 | when two or more topics are shown, the summary separates them with ", " |
| Schemas.SummaryUsesFirstFiveTopics | src/newsintel/schemas.py:143 | two results agreeing on count, average and first five topics have the same summary |
| Schemas.CreateAnalysisResult | src/newsintel/schemas.py:108-123 | a fresh valid result with the given fields exactly when the count is >= 0 and the average in [-1, 1]; otherwise the failing fields in order |
| Schemas.MakeCrewTaskResult | src/newsintel/schemas.py:147-163 | valid exactly when the execution time is >= 0; otherwise that field is named |
| Analyzer.AnalyzeSentiment | src/newsintel/tools/analyzer.py:13-40 | always NEUTRAL with score 0.0 and confidence 0.85; the keywords are the first at most five tags; the result passes validation |
| Analyzer.BatchAnalyzeSentiment | src/newsintel/tools/analyzer.py:43-52 | one result per article, in article order |
| Analyzer.ExtractTopics | src/newsintel/tools/analyzer.py:55-76 | a prefix of the five fixed topics, of length `min(num_topics, 5)` for `num_topics >= 0` |
| Analyzer.TopicsIgnoreArticles | src/newsintel/tools/analyzer.py:70-76 | the topics do not depend on the articles |
| Analyzer.SummarizeArticle | src/newsintel/tools/analyzer.py:79-94 | "" for an empty summary; a summary within the limit unchanged; a longer one cut to `max_length` characters plus "..." |
| Analyzer.Matches | src/newsintel/tools/analyzer.py:116 | the number of matching topics never exceeds the number of topics |
| Analyzer.MatchesAll | src/newsintel/tools/analyzer.py:115-116 | all topics match exactly when each lower-cased topic occurs in the lower-cased "title summary" text |
| Analyzer.MatchesNone | src/newsintel/tools/analyzer.py:115-116 | no topic matches exactly when no lower-cased topic occurs in the text |
| Analyzer.CalculateArticleRelevance | src/newsintel/tools/analyzer.py:97-117 | 0.5 for no target topics; otherwise the number of matching topics divided by the number of topics, which lies in [0, 1] |
| Analyzer.MatchesCountsTopics | src/newsintel/tools/analyzer.py:116 | the match count is the number of topic positions whose lower-cased topic occurs in the text, as the `sum` over the generator counts them |
| Analyzer.Ratio | src/newsintel/tools/analyzer.py:117 | the share `matches / total` is at most 1, equal to 1 exactly when all match and 0 exactly when none do |
| Analyzer.RelevanceExtremes | src/newsintel/tools/analyzer.py:112-117 | relevance is 1.0 exactly when every topic is mentioned and 0.0 exactly when none is |
| Search.SearchNews | src/newsintel/tools/search.py:16-49 | one article tagged `[query]` that passes validation, hence at most `max_results` results when that is >= 1. A query too long for the 500-character title fails validation on "title" |
| Search.SearchTitleMentionsQuery | src/newsintel/tools/search.py:43 | the sample article's title contains the query |
| Search.CombinedQuery | src/newsintel/tools/search.py:76 | the keywords joined by " AND " or " OR ": empty for no keywords, the keyword itself for one; every keyword occurs in it, and with two or more keywords so does the separator `" " + operator + " "` |
| Search.SearchByKeyword | src/newsintel/tools/search.py:52-77 | an operator other than AND or OR raises ValueError with its message; otherwise the result is `search_news` on the joined query with `max_results` passed unchanged |
| Search.KeywordSearchMentionsEveryKeyword | src/newsintel/tools/search.py:76-77 | a successful keyword search gives one article whose title contains every keyword |
| Search.GetTrendingTopics | src/newsintel/tools/search.py:80-96 | the same five topics whatever the category |
| Scraper.ScrapeArticle | src/newsintel/tools/scraper.py:16-42 | never None; the article carries the given url and passes validation |
| Scraper.ExtractContent | src/newsintel/tools/scraper.py:45-68 | exactly the keys title, content, author and date, with author "Unknown" and the current time as date |
| Scraper.ScrapedKeepsEveryUrl | src/newsintel/tools/scraper.py:84-87 | since no scrape fails, one article per url survives, in order, each carrying its url |
| Scraper.BatchScrape | src/newsintel/tools/scraper.py:71-88 | the loop returns the scraped articles of `urls[:max_concurrent]`, in order, of length `min(len(urls), max_concurrent)` for a non-negative limit |
| Crew.GetenvOr | src/newsintel/crew.py:80 | `os.getenv(name, default)`: a set variable, even an empty one, wins over the default |
| Crew.GetLlmConfig | src/newsintel/crew.py:64-109 | an error exactly when none of the three keys is set and non-empty, carrying the corrected message; otherwise one of the three providers with a non-empty key |
| Crew.ProviderPrecedence | src/newsintel/crew.py:77-94 | OpenAI exactly when its key is set; Anthropic exactly when OpenAI's is not and its own is; Google exactly when neither earlier key is and its own is |
| Crew.SelectedKeyAndDefaultModel | src/newsintel/crew.py:79-93 | the returned key is the chosen provider's, and an unset model variable gives gpt-4o-mini, claude-3-haiku-20240307 or gemini-1.5-flash |
| Crew.Repeat | src/newsintel/crew.py:97 | `s * n` has length `n * len(s)` |
| Crew.RepeatOccurs | src/newsintel/crew.py:97-108 | `s * n` holds a copy of `s` at each multiple of `len(s)` below `n * len(s)` |
| Crew.AsWrittenBanner | src/newsintel/crew.py:96-109 | the banner as the literals parse: its length counts sixty copies each of the heading block and the instructions block |
| Crew.AsWrittenBannerRepeats | src/newsintel/crew.py:96-109 | as written, the heading block and the instructions block each occur at sixty distinct offsets |
| Crew.BannerLayout | src/newsintel/crew.py:96-109 | the corrected banner is a rule at offset 1, the heading at 62 (after the rule and a line break), a rule right after the heading, the instructions after that rule and a blank line, and a closing rule right after them, with one copy of each at these offsets; once heading and instructions reach 30 characters together, ten copies of it are still shorter than the text as written |
| Crew.MissingKeyMessageLayout | src/newsintel/crew.py:96-109 | the corrected message has its three rules, its heading and its instructions at the offsets `BannerLayout` gives: the first rule at 1, the heading right after it and its line break, the second rule right after the heading, the instructions after that rule and a blank line, and the last rule right after them; it is less than a tenth of the length of the text as written |
| Crew.DefaultConfigPath | src/newsintel/crew.py:250-256 | the default path is `config/sources.yaml` under the project root |
| Crew.NewsIntelCrew.constructor | src/newsintel/crew.py:240-248 | the config path is the given one or the default under the project root, and the crew has exactly the three standard agents: Researcher, Analyst, Writer |
| Crew.NewsIntelCrew.SetupAgents | src/newsintel/crew.py:258-276 | replaces the agent list with the three standard agents and leaves the config path alone |
| Crew.NewsIntelCrew.Run | src/newsintel/crew.py:309-337 | a valid fresh result exactly when `max_articles >= 0`, with count `max_articles`, average 0.65, three topics starting with the topic, no raw articles and the "Found N articles about T" insight; otherwise ValidationError on article_count |

## Left out

- Caching: `st.cache_data` (30-minute TTL) on `fetch_news` and `st.cache_resource` on the analyzer are not modelled. Each call is computed afresh.
- Rendering: every `st.*` call (columns, images, captions, markdown, emoji, the bar chart and its colours, the sidebar) is left out. `Dashboard.Page` records what would be shown in a `View`.
- The NLTK lexicon download check at import time is left out.
- Python floats are Dafny `real`s, so the model's arithmetic is exact. The only float arithmetic in the core, `matches / len(target_topics)` in `calculate_article_relevance`, is rounded to a double in Python. The proved bounds, 0, 1 and the 0.5 default are exact in both.
- Utils.AnalyzeSentimentVader: a failure while building the shared `SentimentIntensityAnalyzer` (utils.py:102, outside the `try`) propagates out of `analyze_sentiment_vader` and aborts the page; the model does not capture it, because `vader` stands only for the scoring call.
- Foreign code is a parameter: the HTTP request and JSON decoding (`send`), VADER scoring (`vader`), `isoparse` and `strftime` (`isoFormat`), Python's `hash` (`hashOf`), the `:.2f` format (`fmt2`) and `datetime.now()` (`now`).
- Schemas.MakeNewsSource: does not validate `HttpUrl`, because URL syntax checking is pydantic's own code. The same holds for `url` and `image_url` in `MakeNewsArticle`.
- The `published_at`, `fetched_at` and `created_at` timestamps, filled from the clock, are not fields of the model.
- Utils.ArticleRecord: a JSON `null` title or source name is folded into None, so it shows "No Title" / "No Source". In Python, `.get` returns None in that case rather than the default, and the page shows "None".
- Utils.ArticleRecord: a `source` field holding `null` makes `.get('name')` raise in Python; the model has no such crash.
- Utils.ArticleRecord: `publishedAt` is taken to be a string or missing.
- Utils.ClassifyBody: an `articles` key holding `null` is folded into a missing list, giving the no-news notice as an empty list does.
- Strings.Lower: lower-cases ASCII letters only, because Unicode case mapping is out of scope.
- Dashboard.Tally: the map has no order; the descending order of `value_counts` and the chart's colours are not modelled.
- Search.SearchNews: `max_results` and `time_range` are ignored by the source and so by the model. The documented bound is proved only for `max_results >= 1`.
- `run_demo`, `save_report`, `run_crew`, dotenv loading and the Windows console fix in crew.py are left out: they call the LLM, write files or configure the process.
- `_create_researcher_task` and `_create_analyst_task` are left out: their dictionaries hold tool function objects and nothing calls them.
- Crew.GetLlmConfig: its failure carries the corrected banner (`MissingKeyMessage`), not the text crew.py raises, which repeats the heading and the instructions sixty times each (`AsWrittenMissingKeyMessage`, see Findings).
- `_default_config_path` is `DefaultConfigPath` over a given project root, because the module's own location is not available to the model.
- config.py is not part of this model beyond the constants it supplies: endpoint, thresholds and default page size.

## Findings

| source | as written | input that shows it | evidently intended | confidence | as-written member | corrected member |
|---|---|---|---|---|---|---|
| src/newsintel/crew.py:96-109 | Adjacent string literals are joined before `*` applies. So `"❌ LLM API KEY NOT FOUND!\n" "=" * 60` repeats the heading line sixty times, and the closing `"=" * 60` repeats the whole instructions text sixty times | an environment with none of OPENAI_API_KEY, ANTHROPIC_API_KEY, GOOGLE_API_KEY set: the raised message contains the heading 60 times and the instructions 60 times | one banner: a rule, the heading, a rule, the instructions, a rule | not executed | Crew.AsWrittenBannerRepeats | Crew.BannerLayout |

=== FILE: analyzer.dfy ===
/**
 * tools/analyzer.py: the placeholder analysis tools. Sentiment is a fixed
 * neutral result, topics a fixed list; summaries are truncated by character
 * count and relevance is the share of target topics the article mentions.
 */
module Analyzer {
  import opened Wrappers
  import opened Strings
  import opened Schemas

  /** The confidence every placeholder sentiment result reports. */
  const PlaceholderConfidence: real := 0.85

  /** The topics extract_topics picks from, in order. */
  const FixedTopics: seq<string> :=
    ["artificial intelligence", "technology trends", "innovation", "business impact", "future outlook"]

  /** analyze_sentiment; `hashOf(title)` stands for `str(hash(article.title))`. */
  function AnalyzeSentiment(article: NewsArticle, hashOf: string -> string): (r: SentimentResult)
    ensures r.sentiment == Neutral && r.score == 0.0 && r.confidence == PlaceholderConfidence
    ensures r.articleId == hashOf(article.title)
    ensures r.keywords <= article.tags && |r.keywords| == Min(5, |article.tags|)
    ensures MakeSentimentResult(r.articleId, r.sentiment, r.score, r.confidence, r.keywords) == Success(r)
  {
    SentimentResult(hashOf(article.title), Neutral, 0.0, PlaceholderConfidence,
                    if article.tags != [] then Take(article.tags, 5) else [])
  }

  /** batch_analyze_sentiment: one result per article, in article order. */
  function BatchAnalyzeSentiment(articles: seq<NewsArticle>, hashOf: string -> string): (r: seq<SentimentResult>)
    ensures |r| == |articles|
    ensures forall i :: 0 <= i < |articles| ==> r[i] == AnalyzeSentiment(articles[i], hashOf)
    decreases |articles|
  {
    if articles == [] then []
    else [AnalyzeSentiment(articles[0], hashOf)] + BatchAnalyzeSentiment(articles[1..], hashOf)
  }

  /** extract_topics: the first `numTopics` fixed topics, with Python's slice rules. */
  function ExtractTopics(articles: seq<NewsArticle>, numTopics: int := 5): (r: seq<string>)
    ensures r <= FixedTopics
    ensures 0 <= numTopics ==> |r| == Min(numTopics, 5)
    ensures numTopics < 0 ==> |r| == Max(0, 5 + numTopics)
  {
    Take(FixedTopics, numTopics)
  }

  /** The topics do not depend on the articles. */
  lemma TopicsIgnoreArticles(a1: seq<NewsArticle>, a2: seq<NewsArticle>, numTopics: int)
    ensures ExtractTopics(a1, numTopics) == ExtractTopics(a2, numTopics)
  {
  }

  /** summarize_article: `max_length` counts characters, not words. */
  function SummarizeArticle(article: NewsArticle, maxLength: int := 150): (r: string)
    ensures article.summary == "" ==> r == ""
    ensures article.summary != "" && |article.summary| <= maxLength ==> r == article.summary
    ensures article.summary != "" && |article.summary| > maxLength ==>
              r == Take(article.summary, maxLength) + "..." && Take(article.summary, maxLength) < article.summary
    ensures 0 <= maxLength ==> |r| <= maxLength + 3
  {
    var summary := article.summary;
    if summary != "" && |summary| <= maxLength then summary
    else if summary != "" then Take(summary, maxLength) + "..."
    else ""
  }

  /** The text topics are looked for in: `f"{title} {summary}".lower()`. */
  function ArticleText(article: NewsArticle): string {
    Lower(article.title + " " + article.summary)
  }

  /** How many of `topics` occur, lower-cased, in `text`. */
  function Matches(text: string, topics: seq<string>): (n: nat)
    ensures n <= |topics|
    decreases |topics|
  {
    if topics == [] then 0
    else Matches(text, topics[..|topics| - 1]) + (if Contains(text, Lower(topics[|topics| - 1])) then 1 else 0)
  }

  /** Every topic matches exactly when the count is the number of topics. */
  lemma {:induction false} MatchesAll(text: string, topics: seq<string>)
    ensures Matches(text, topics) == |topics| <==> forall i :: 0 <= i < |topics| ==> IsInfix(Lower(topics[i]), text)
    decreases |topics|
  {
    if topics != [] {
      var init := topics[..|topics| - 1];
      MatchesAll(text, init);
      ContainsIsInfix(text, Lower(topics[|topics| - 1]));
      assert forall i :: 0 <= i < |init| ==> init[i] == topics[i];
    }
  }

  /** The topics, by position, whose lower-case form occurs in the text. */
  ghost function MatchingTopics(text: string, topics: seq<string>): set<int> {
    set i | 0 <= i < |topics| && IsInfix(Lower(topics[i]), text)
  }

  /** Going one topic further adds its position exactly when it occurs. */
  lemma MatchingTopicsStep(text: string, topics: seq<string>)
    requires topics != []
    ensures var n := |topics| - 1;
            MatchingTopics(text, topics) ==
              MatchingTopics(text, topics[..n]) + (if IsInfix(Lower(topics[n]), text) then {n} else {})
  {
    var n := |topics| - 1;
    var init := topics[..n];
    forall i | 0 <= i < n
      ensures i in MatchingTopics(text, topics) <==> i in MatchingTopics(text, init)
    {
      assert init[i] == topics[i];
    }
  }

  /** The count is the number of topics whose lower-case form occurs in the text, as the generator in `sum` counts them. */
  lemma {:induction false} MatchesCountsTopics(text: string, topics: seq<string>)
    ensures Matches(text, topics) == |MatchingTopics(text, topics)|
    decreases |topics|
  {
    if topics != [] {
      var n := |topics| - 1;
      MatchesCountsTopics(text, topics[..n]);
      ContainsIsInfix(text, Lower(topics[n]));
      MatchingTopicsStep(text, topics);
      assert n !in MatchingTopics(text, topics[..n]);
    }
  }

  /** No topic matches exactly when the count is zero. */
  lemma {:induction false} MatchesNone(text: string, topics: seq<string>)
    ensures Matches(text, topics) == 0 <==> forall i :: 0 <= i < |topics| ==> !IsInfix(Lower(topics[i]), text)
    decreases |topics|
  {
    if topics != [] {
      var init := topics[..|topics| - 1];
      MatchesNone(text, init);
      ContainsIsInfix(text, Lower(topics[|topics| - 1]));
      assert forall i :: 0 <= i < |init| ==> init[i] == topics[i];
    }
  }

  /** calculate_article_relevance. */
  function CalculateArticleRelevance(article: NewsArticle, targetTopics: seq<string>): (r: real)
    ensures targetTopics == [] ==> r == 0.5
    ensures targetTopics != [] ==> r == (Matches(ArticleText(article), targetTopics) as real) / (|targetTopics| as real)
    ensures 0.0 <= r <= 1.0
  {
    if targetTopics == [] then 0.5
    else
      var ratio := (Matches(ArticleText(article), targetTopics) as real) / (|targetTopics| as real);
      if ratio <= 1.0 then ratio else 1.0
  }

  /** A share of matches: at most 1, 1 only when all match, 0 only when none do. */
  lemma Ratio(m: nat, n: nat)
    requires 0 < n && m <= n
    ensures (m as real) / (n as real) <= 1.0
    ensures (m as real) / (n as real) == 1.0 <==> m == n
    ensures (m as real) / (n as real) == 0.0 <==> m == 0
  {
    var q := (m as real) / (n as real);
    assert q * (n as real) == m as real;
  }

  /** Relevance is 1 exactly when every topic is mentioned and 0 exactly when none is. */
  lemma RelevanceExtremes(article: NewsArticle, targetTopics: seq<string>)
    requires targetTopics != []
    ensures CalculateArticleRelevance(article, targetTopics) == 1.0 <==>
              forall i :: 0 <= i < |targetTopics| ==> IsInfix(Lower(targetTopics[i]), ArticleText(article))
    ensures CalculateArticleRelevance(article, targetTopics) == 0.0 <==>
              forall i :: 0 <= i < |targetTopics| ==> !IsInfix(Lower(targetTopics[i]), ArticleText(article))
  {
    var text := ArticleText(article);
    MatchesAll(text, targetTopics);
    MatchesNone(text, targetTopics);
    Ratio(Matches(text, targetTopics), |targetTopics|);
  }
}

=== FILE: crew.dfy ===
/**
 * crew.py: choosing the LLM provider from the environment, and the mock
 * NewsIntelCrew, whose agents are fixed and whose run returns canned data.
 */
module Crew {
  import opened Wrappers
  import opened Strings
  import opened Schemas

  datatype AgentConfig = AgentConfig(role: string, goal: string, backstory: string)

  /** The dictionary get_llm_config returns. */
  datatype LlmConfig = LlmConfig(provider: string, model: string, apiKey: string)

  datatype EnvironmentError = EnvironmentError(message: string)

  /** `if os.getenv(name):`: the variable is set and not empty. */
  predicate IsSet(env: map<string, string>, name: string) {
    name in env && env[name] != ""
  }

  /** `os.getenv(name, default)`: a variable set to "" still wins over the default. */
  function GetenvOr(env: map<string, string>, name: string, default: string): (v: string)
    ensures name in env ==> v == env[name]
    ensures name !in env ==> v == default
  {
    if name in env then env[name] else default
  }

  /** `s * n` for a string. */
  function Repeat(s: string, n: nat): (r: string)
    ensures |r| == n * |s|
  {
    if n == 0 then "" else Repeat(s, n - 1) + s
  }

  /** `s * n` holds a copy of `s` at every multiple of `|s|` below `n * |s|`. */
  lemma {:induction false} RepeatOccurs(s: string, n: nat, k: nat)
    requires k < n
    ensures OccursAt(Repeat(s, n), s, k * |s|)
  {
    if k == n - 1 {
      assert OccursAt(s, s, 0);
      OccursAtLeft(s, s, 0, Repeat(s, n - 1));
    } else {
      RepeatOccurs(s, n - 1, k);
      OccursAtRight(Repeat(s, n - 1), s, k * |s|, s);
    }
  }

  const Rule: string := Repeat("=", 60)
  const Heading: string := "❌ LLM API KEY NOT FOUND!\n"
  const Instructions: string :=
    "Please set one of the following environment variables:\n\n"
    + "  • OPENAI_API_KEY     - For OpenAI models (GPT-4, etc.)\n"
    + "  • ANTHROPIC_API_KEY  - For Anthropic models (Claude)\n"
    + "  • GOOGLE_API_KEY     - For Google models (Gemini)\n\n"
    + "Example:\n"
    + "  Windows:  set OPENAI_API_KEY=sk-your-key-here\n"
    + "  Linux:    export OPENAI_API_KEY=sk-your-key-here\n\n"
    + "Or create a .env file in the project root.\n"

  /**
   * The EnvironmentError text as crew.py:97-108 spells it: adjacent string
   * literals are joined before `* 60` applies, so each `"=" * 60` after the
   * first repeats the whole literal run before it sixty times.
   */
  function AsWrittenBanner(heading: string, instructions: string): (r: string)
    ensures |r| == 61 + 60 * (|heading| + 2) + 60 * (|instructions| + 3)
  {
    "\n" + Rule + Repeat("\n" + heading + "=", 60) + Repeat("\n\n" + instructions + "=", 60)
  }

  /** The banner the layout of crew.py:97-108 evidently means: rule, heading, rule, instructions, rule. */
  function Banner(heading: string, instructions: string): string {
    "\n" + Rule + "\n" + heading + Rule + "\n\n" + instructions + Rule
  }

  const AsWrittenMissingKeyMessage: string := AsWrittenBanner(Heading, Instructions)
  const MissingKeyMessage: string := Banner(Heading, Instructions)

  /** As written, the heading and the instructions each appear sixty times over. */
  lemma AsWrittenBannerRepeats(heading: string, instructions: string, k: nat)
    requires k < 60
    ensures OccursAt(AsWrittenBanner(heading, instructions), "\n" + heading + "=",
                     61 + k * (|heading| + 2))
    ensures OccursAt(AsWrittenBanner(heading, instructions), "\n\n" + instructions + "=",
                     61 + 60 * (|heading| + 2) + k * (|instructions| + 3))
  {
    var head := "\n" + Rule;
    var hBlock := "\n" + heading + "=";
    var iBlock := "\n\n" + instructions + "=";
    var headings := Repeat(hBlock, 60);
    var blocks := Repeat(iBlock, 60);
    RepeatOccurs(hBlock, 60, k);
    OccursAtLeft(headings, hBlock, k * |hBlock|, head);
    OccursAtRight(head + headings, hBlock, 61 + k * |hBlock|, blocks);
    RepeatOccurs(iBlock, 60, k);
    OccursAtLeft(blocks, iBlock, k * |iBlock|, head + headings);
  }

  /**
   * The corrected banner is a rule, the heading, a rule, the instructions and
   * a rule, at these offsets; once the two texts are at least 30 characters
   * together, the text as written is over ten times as long.
   */
  lemma {:induction false} BannerLayout(heading: string, instructions: string)
    ensures OccursAt(Banner(heading, instructions), Rule, 1)
    ensures OccursAt(Banner(heading, instructions), heading, 62)
    ensures OccursAt(Banner(heading, instructions), Rule, 62 + |heading|)
    ensures OccursAt(Banner(heading, instructions), instructions, 62 + |heading| + 62)
    ensures OccursAt(Banner(heading, instructions), Rule, 124 + |heading| + |instructions|)
    ensures |Banner(heading, instructions)| == |heading| + |instructions| + 3 * 60 + 4
    ensures |heading| + |instructions| >= 30 ==>
              10 * |Banner(heading, instructions)| < |AsWrittenBanner(heading, instructions)|
  {
    var before := "\n" + Rule + "\n";
    assert OccursAt(heading, heading, 0);
    OccursAtLeft(heading, heading, 0, before);
    OccursAtRight(before + heading, heading, 62, Rule);
    OccursAtRight(before + heading + Rule, heading, 62, "\n\n");
    OccursAtRight(before + heading + Rule + "\n\n", heading, 62, instructions);
    OccursAtRight(before + heading + Rule + "\n\n" + instructions, heading, 62, Rule);
    var upTo := before + heading + Rule + "\n\n";
    assert OccursAt(instructions, instructions, 0);
    OccursAtLeft(instructions, instructions, 0, upTo);
    OccursAtRight(upTo + instructions, instructions, |upTo|, Rule);
    BannerRules(heading, instructions);
  }

  /** The three rules of the corrected banner and where they start. */
  lemma BannerRules(heading: string, instructions: string)
    ensures OccursAt(Banner(heading, instructions), Rule, 1)
    ensures OccursAt(Banner(heading, instructions), Rule, 62 + |heading|)
    ensures OccursAt(Banner(heading, instructions), Rule, 124 + |heading| + |instructions|)
  {
    BannerFirstRule(heading, instructions);
    BannerSecondRule(heading, instructions);
    BannerLastRule(heading, instructions);
  }

  lemma BannerFirstRule(heading: string, instructions: string)
    ensures OccursAt(Banner(heading, instructions), Rule, 1)
  {
    var first := "\n" + Rule;
    assert OccursAt(Rule, Rule, 0);
    OccursAtLeft(Rule, Rule, 0, "\n");
    OccursAtRight(first, Rule, 1, "\n");
    OccursAtRight(first + "\n", Rule, 1, heading);
    OccursAtRight(first + "\n" + heading, Rule, 1, Rule);
    OccursAtRight(first + "\n" + heading + Rule, Rule, 1, "\n\n");
    OccursAtRight(first + "\n" + heading + Rule + "\n\n", Rule, 1, instructions);
    OccursAtRight(first + "\n" + heading + Rule + "\n\n" + instructions, Rule, 1, Rule);
  }

  lemma BannerSecondRule(heading: string, instructions: string)
    ensures OccursAt(Banner(heading, instructions), Rule, 62 + |heading|)
  {
    var second := "\n" + Rule + "\n" + heading + Rule;
    assert OccursAt(Rule, Rule, 0);
    OccursAtLeft(Rule, Rule, 0, "\n" + Rule + "\n" + heading);
    OccursAtRight(second, Rule, 62 + |heading|, "\n\n");
    OccursAtRight(second + "\n\n", Rule, 62 + |heading|, instructions);
    OccursAtRight(second + "\n\n" + instructions, Rule, 62 + |heading|, Rule);
  }

  lemma BannerLastRule(heading: string, instructions: string)
    ensures OccursAt(Banner(heading, instructions), Rule, 124 + |heading| + |instructions|)
  {
    assert OccursAt(Rule, Rule, 0);
    OccursAtLeft(Rule, Rule, 0, "\n" + Rule + "\n" + heading + Rule + "\n\n" + instructions);
  }

  /** Where the corrected message puts its rules, heading and instructions, and how it compares in length. */
  lemma MissingKeyMessageLayout()
    ensures OccursAt(MissingKeyMessage, Rule, 1)
    ensures OccursAt(MissingKeyMessage, Heading, 62)
    ensures OccursAt(MissingKeyMessage, Rule, 62 + |Heading|)
    ensures OccursAt(MissingKeyMessage, Instructions, 62 + |Heading| + 62)
    ensures OccursAt(MissingKeyMessage, Rule, 124 + |Heading| + |Instructions|)
    ensures 10 * |MissingKeyMessage| < |AsWrittenMissingKeyMessage|
  {
    BannerLayout(Heading, Instructions);
  }

  /**
   * get_llm_config: OpenAI, then Anthropic, then Google, by the first key
   * that is set and not empty; otherwise EnvironmentError.
   */
  function GetLlmConfig(env: map<string, string>): (r: Result<LlmConfig, EnvironmentError>)
    ensures r.Failure? <==> !IsSet(env, "OPENAI_API_KEY") && !IsSet(env, "ANTHROPIC_API_KEY") && !IsSet(env, "GOOGLE_API_KEY")
    ensures r.Failure? ==> r.error.message == MissingKeyMessage
    ensures r.Success? ==> r.value.provider in {"openai", "anthropic", "google"} && r.value.apiKey != ""
  {
    if IsSet(env, "OPENAI_API_KEY") then
      Success(LlmConfig("openai", GetenvOr(env, "OPENAI_MODEL", "gpt-4o-mini"), env["OPENAI_API_KEY"]))
    else if IsSet(env, "ANTHROPIC_API_KEY") then
      Success(LlmConfig("anthropic", GetenvOr(env, "ANTHROPIC_MODEL", "claude-3-haiku-20240307"), env["ANTHROPIC_API_KEY"]))
    else if IsSet(env, "GOOGLE_API_KEY") then
      Success(LlmConfig("google", GetenvOr(env, "GOOGLE_MODEL", "gemini-1.5-flash"), env["GOOGLE_API_KEY"]))
    else
      Failure(EnvironmentError(MissingKeyMessage))
  }

  /** Precedence: each provider is chosen exactly when its key is set and every earlier one is not. */
  lemma ProviderPrecedence(env: map<string, string>)
    ensures GetLlmConfig(env).Success? && GetLlmConfig(env).value.provider == "openai"
            <==> IsSet(env, "OPENAI_API_KEY")
    ensures GetLlmConfig(env).Success? && GetLlmConfig(env).value.provider == "anthropic"
            <==> !IsSet(env, "OPENAI_API_KEY") && IsSet(env, "ANTHROPIC_API_KEY")
    ensures GetLlmConfig(env).Success? && GetLlmConfig(env).value.provider == "google"
            <==> !IsSet(env, "OPENAI_API_KEY") && !IsSet(env, "ANTHROPIC_API_KEY") && IsSet(env, "GOOGLE_API_KEY")
  {
  }

  /** The returned key is the chosen provider's, and an unset model variable gives the default model. */
  lemma SelectedKeyAndDefaultModel(env: map<string, string>)
    requires GetLlmConfig(env).Success?
    ensures var c := GetLlmConfig(env).value;
      match c.provider
      case "openai" => c.apiKey == env["OPENAI_API_KEY"] && ("OPENAI_MODEL" !in env ==> c.model == "gpt-4o-mini")
      case "anthropic" =>
        c.apiKey == env["ANTHROPIC_API_KEY"] && ("ANTHROPIC_MODEL" !in env ==> c.model == "claude-3-haiku-20240307")
      case _ => c.apiKey == env["GOOGLE_API_KEY"] && ("GOOGLE_MODEL" !in env ==> c.model == "gemini-1.5-flash")
  {
  }

  /** The three agents _setup_agents configures, in order. */
  const StandardAgents: seq<AgentConfig> := [
    AgentConfig(
      "News Researcher",
      "Find the most relevant and recent news articles on the given topic",
      "Expert at discovering breaking news and trending stories from reliable sources"),
    AgentConfig(
      "Content Analyst",
      "Analyze news content for key insights, sentiment, and trends",
      "Seasoned analyst with expertise in media analysis and trend identification"),
    AgentConfig(
      "Report Writer",
      "Synthesize findings into clear, actionable intelligence reports",
      "Skilled technical writer who excels at creating executive summaries")
  ]

  /** `Path(__file__).parent.parent.parent / "config" / "sources.yaml"`, given that directory. */
  function DefaultConfigPath(projectRoot: string): (path: string)
    ensures |path| == |projectRoot| + |"/config/sources.yaml"|
    ensures path[..|projectRoot|] == projectRoot
    ensures path[|projectRoot|..] == "/config/sources.yaml"
  {
    projectRoot + "/config/sources.yaml"
  }

  /** The mock crew: a configuration path and its agents. */
  class NewsIntelCrew {
    var configPath: string
    var agents: seq<AgentConfig>

    /** `NewsIntelCrew(config_path)`; `projectRoot` is the directory three levels above crew.py. */
    constructor (configPath: Option<string>, projectRoot: string)
      ensures this.configPath == configPath.GetOr(DefaultConfigPath(projectRoot))
      ensures agents == StandardAgents
      ensures |agents| == 3
      ensures agents[0].role == "News Researcher" && agents[1].role == "Content Analyst"
      ensures agents[2].role == "Report Writer"
    {
      this.configPath := configPath.GetOr(DefaultConfigPath(projectRoot));
      agents := [];
      new;
      SetupAgents();
    }

    /** _setup_agents: replaces the agent list with the three standard agents. */
    method SetupAgents()
      modifies this`agents
      ensures agents == StandardAgents
      ensures configPath == old(configPath)
    {
      agents := StandardAgents;
    }

    /**
     * run: canned results. Building them validates `article_count >= 0`, so a
     * negative `maxArticles` raises ValidationError.
     */
    method Run(topic: string, timeRange: string := "24h", maxArticles: int := 10)
      returns (r: Result<AnalysisResult, ValidationError>)
      ensures r.Success? <==> maxArticles >= 0
      ensures r.Success? ==> fresh(r.value) && r.value.Valid()
      ensures r.Success? ==> r.value.articleCount == maxArticles && r.value.rawArticles == []
      ensures r.Success? ==> |r.value.topics| == 3 && r.value.topics[0] == topic
      ensures r.Success? ==> r.value.avgSentiment == 0.65 && |r.value.insights| == 3
      ensures r.Success? ==> r.value.insights[0] == "Found " + IntToString(maxArticles) + " articles about " + topic
      ensures r.Failure? ==> r.error.fields == ["article_count"]
    {
      r := CreateAnalysisResult(
        maxArticles,
        0.65,
        [topic, "technology", "innovation"],
        ["Found " + IntToString(maxArticles) + " articles about " + topic,
         "Overall sentiment is positive",
         "Key trend: Increasing AI adoption"],
        []);
    }
  }
}

=== FILE: dashboard.dfy ===
/**
 * The dashboard page of app.py (lines 51-130): the fetch gate, the loop that
 * shows and scores each article, the label tally behind the distribution
 * chart and the branches that pick what the page shows. Rendering calls are
 * left out; what would be rendered is collected in a View.
 */
module Dashboard {
  import opened Wrappers
  import opened Utils

  /** What one article's block shows. */
  datatype Card = Card(
    image: Option<string>,
    title: string,
    source: string,
    published: string,
    description: Option<string>,
    sentiment: Option<(Label, real)>,
    link: Option<string>)

  /** The block for one article; `sentiment` is the analysis of its description, if it was scored. */
  function CardOf(a: ArticleRecord, sentiment: Option<(Label, real)>, isoFormat: string -> Option<string>): (c: Card)
    ensures a.title.None? ==> c.title == "No Title"
    ensures a.sourceName.None? ==> c.source == "No Source"
    ensures c.description.Some? <==> Truthy(a.description)
    ensures c.image.Some? <==> Truthy(a.urlToImage)
    ensures c.link.Some? <==> Truthy(a.url)
    ensures a.title.Some? ==> c.title == a.title.value
    ensures a.sourceName.Some? ==> c.source == a.sourceName.value
    ensures c.published == FormatDatetime(a.publishedAt, isoFormat)
    ensures c.description.Some? ==> c.description == a.description
    ensures c.image.Some? ==> c.image == a.urlToImage
    ensures c.link.Some? ==> c.link == a.url
    ensures c.sentiment == sentiment
  {
    Card(
      if Truthy(a.urlToImage) then a.urlToImage else None,
      a.title.GetOr("No Title"),
      a.sourceName.GetOr("No Source"),
      FormatDatetime(a.publishedAt, isoFormat),
      if Truthy(a.description) then a.description else None,
      sentiment,
      if Truthy(a.url) then a.url else None)
  }

  /** The descriptions that get scored: those that are truthy, in article order. */
  function Described(articles: seq<ArticleRecord>): (r: seq<string>)
    ensures |r| <= |articles|
    ensures forall k :: 0 <= k < |r| ==> r[k] != ""
    decreases |articles|
  {
    if articles == [] then []
    else
      var last := articles[|articles| - 1];
      Described(articles[..|articles| - 1]) + (if Truthy(last.description) then [last.description.value] else [])
  }

  /** Every article is scored exactly when every article has a description. */
  lemma {:induction false} AllDescribedIffAllScored(articles: seq<ArticleRecord>)
    ensures |Described(articles)| == |articles| <==> forall i :: 0 <= i < |articles| ==> Truthy(articles[i].description)
    decreases |articles|
  {
    if articles != [] {
      var init := articles[..|articles| - 1];
      AllDescribedIffAllScored(init);
      assert forall i :: 0 <= i < |init| ==> init[i] == articles[i];
    }
  }

  /** Going one article further adds its description, if it has one. */
  lemma DescribedStep(articles: seq<ArticleRecord>, i: nat)
    requires i < |articles|
    ensures Described(articles[..i + 1]) ==
              Described(articles[..i]) + (if Truthy(articles[i].description) then [articles[i].description.value] else [])
  {
    assert articles[..i + 1][..i] == articles[..i];
  }

  /** One pass of the per-article loop: score the description, if any, and build the block. */
  method ShowArticle(article: ArticleRecord, vader: string -> Polarity, isoFormat: string -> Option<string>)
    returns (card: Card, sentiment: Option<(Label, real)>)
    ensures sentiment == SentimentOf(article, vader)
    ensures sentiment.Some? ==> sentiment.value == AnalyzeSentimentVader(Str(article.description.value), vader)
    ensures card == CardOf(article, sentiment, isoFormat)
  {
    sentiment := None;
    if Truthy(article.description) {
      sentiment := Some(AnalyzeSentimentVader(Str(article.description.value), vader));
    }
    card := CardOf(article, sentiment, isoFormat);
  }

  /** The per-article loop of app.py: one card per article; a label and a score per described article. */
  method ShowArticles(articles: seq<ArticleRecord>, vader: string -> Polarity, isoFormat: string -> Option<string>)
    returns (cards: seq<Card>, sentiments: seq<Label>, scores: seq<real>)
    ensures |cards| == |articles|
    ensures forall i {:trigger cards[i]} :: 0 <= i < |articles| ==>
              cards[i] == CardOf(articles[i], SentimentOf(articles[i], vader), isoFormat)
    ensures |sentiments| == |scores| == |Described(articles)| <= |articles|
    ensures forall k :: 0 <= k < |sentiments| ==>
              (sentiments[k], scores[k]) == AnalyzeSentimentVader(Str(Described(articles)[k]), vader)
  {
    cards, sentiments, scores := [], [], [];
    ghost var described: seq<string> := [];
    for i := 0 to |articles|
      invariant described == Described(articles[..i])
      invariant |cards| == i
      invariant forall j {:trigger cards[j]} :: 0 <= j < i ==> cards[j] == CardOf(articles[j], SentimentOf(articles[j], vader), isoFormat)
      invariant |sentiments| == |scores| == |described|
      invariant forall k :: 0 <= k < |sentiments| ==>
                  (sentiments[k], scores[k]) == AnalyzeSentimentVader(Str(described[k]), vader)
    {
      DescribedStep(articles, i);
      var card, sentiment := ShowArticle(articles[i], vader, isoFormat);
      if sentiment.Some? {
        sentiments := sentiments + [sentiment.value.0];
        scores := scores + [sentiment.value.1];
        described := described + [articles[i].description.value];
      }
      cards := cards + [card];
    }
    assert articles[..|articles|] == articles;
  }

  /** The analysis shown for one article, if it has a description. */
  function SentimentOf(a: ArticleRecord, vader: string -> Polarity): (r: Option<(Label, real)>)
    ensures r.Some? <==> Truthy(a.description)
    ensures r.Some? ==> r.value.0 == LabelFor(r.value.1)
  {
    if Truthy(a.description) then Some(AnalyzeSentimentVader(Str(a.description.value), vader)) else None
  }

  /** How many times `l` occurs in `labels`. */
  function Occurrences(labels: seq<Label>, l: Label): (n: nat)
    ensures n <= |labels|
    decreases |labels|
  {
    if labels == [] then 0
    else Occurrences(labels[..|labels| - 1], l) + (if labels[|labels| - 1] == l then 1 else 0)
  }

  lemma {:induction false} OccurrencesPositive(labels: seq<Label>, l: Label)
    ensures Occurrences(labels, l) > 0 <==> l in labels
    decreases |labels|
  {
    if labels != [] {
      var init := labels[..|labels| - 1];
      OccurrencesPositive(init, l);
      assert labels == init + [labels[|labels| - 1]];
    }
  }

  /** The three label counts add up to the number of labels. */
  lemma {:induction false} OccurrencesSum(labels: seq<Label>)
    ensures Occurrences(labels, Positive) + Occurrences(labels, Negative) + Occurrences(labels, Neutral) == |labels|
    decreases |labels|
  {
    if labels != [] {
      OccurrencesSum(labels[..|labels| - 1]);
    }
  }

  /** The count a distribution holds for a label; value_counts leaves out labels that never occur. */
  function CountOf(counts: map<Label, nat>, l: Label): nat {
    if l in counts then counts[l] else 0
  }

  /** `pd.Series(sentiments).value_counts()`: one entry per label that occurs, holding how often. */
  method Tally(sentiments: seq<Label>) returns (counts: map<Label, nat>)
    ensures forall l :: l in counts <==> l in sentiments
    ensures forall l :: CountOf(counts, l) == Occurrences(sentiments, l)
    ensures CountOf(counts, Positive) + CountOf(counts, Negative) + CountOf(counts, Neutral) == |sentiments|
  {
    counts := map[];
    for i := 0 to |sentiments|
      invariant forall l :: l in counts <==> l in sentiments[..i]
      invariant forall l :: CountOf(counts, l) == Occurrences(sentiments[..i], l)
    {
      var l := sentiments[i];
      assert sentiments[..i + 1] == sentiments[..i] + [l];
      assert sentiments[..i + 1][..i] == sentiments[..i];
      counts := counts[l := CountOf(counts, l) + 1];
    }
    assert sentiments[..|sentiments|] == sentiments;
    OccurrencesSum(sentiments);
  }

  /** What one run of the page shows. */
  datatype View = View(
    fetched: bool,
    errorBanners: seq<string>,
    found: Option<nat>,
    cards: seq<Card>,
    labels: seq<Label>,
    distribution: Option<map<Label, nat>>,
    noArticlesInfo: bool,
    enterTopicInfo: bool)

  /**
   * One run of the page. The sidebar's values arrive as parameters; `apiKey`
   * is the configured NewsAPI key and `send`, `vader`, `isoFormat` stand for
   * the network, VADER and dateutil.
   */
  method Page(searchClicked: bool, topic: string, language: string, pageSize: int, sortBy: string,
              apiKey: Option<string>, send: Request -> Outcome,
              vader: string -> Polarity, isoFormat: string -> Option<string>)
    returns (view: View)
    ensures view.fetched <==> searchClicked && topic != ""
    ensures !view.fetched ==> view.errorBanners == [] && view.found.None? && view.cards == []
    ensures view.enterTopicInfo <==> topic == ""
    ensures view.errorBanners != [] ==> view.cards == []
    ensures view.found.Some? ==> view.found.value == |view.cards| > 0
    ensures |view.labels| <= |view.cards|
    ensures view.distribution.Some? <==> view.labels != []
    ensures view.distribution.Some? ==>
              var d := view.distribution.value;
              CountOf(d, Positive) + CountOf(d, Negative) + CountOf(d, Neutral) == |view.labels|
    ensures !view.noArticlesInfo
    ensures view.fetched ==>
              var f := FetchSpec(apiKey, topic, language, pageSize, sortBy, send);
              view.errorBanners == Messages(f.notice) &&
              |view.cards| == |f.articles| &&
              (forall i {:trigger view.cards[i]} :: 0 <= i < |view.cards| ==>
                 view.cards[i] == CardOf(f.articles[i], SentimentOf(f.articles[i], vader), isoFormat)) &&
              |view.labels| == |Described(f.articles)| &&
              (forall k :: 0 <= k < |view.labels| ==>
                 view.labels[k] == AnalyzeSentimentVader(Str(Described(f.articles)[k]), vader).0)
    ensures view.distribution.Some? ==> forall l :: CountOf(view.distribution.value, l) == Occurrences(view.labels, l)
  {
    var fetched, errorBanners, found, cards, labels, distribution, noArticlesInfo, enterTopicInfo :=
      false, [], None, [], [], None, false, false;
    if searchClicked && topic != "" {
      var articles, errors, _ := FetchNews(apiKey, send, topic, language, pageSize, sortBy);
      fetched, errorBanners := true, errors;
      if articles != [] {
        var shown, sentiments, _ := ShowArticles(articles, vader, isoFormat);
        found, cards, labels := Some(|articles|), shown, sentiments;
        if sentiments != [] {
          var counts := Tally(sentiments);
          distribution := Some(counts);
        }
      } else if errors == [] {
        noArticlesInfo := true;
      }
    } else if topic == "" {
      enterTopicInfo := true;
    }
    view := View(fetched, errorBanners, found, cards, labels, distribution, noArticlesInfo, enterTopicInfo);
  }
}

=== FILE: schemas.dfy ===
/**
 * schemas.py: the records passed between the news tools and the crew, with
 * the field constraints pydantic enforces when one is constructed. A
 * construction that breaks a constraint raises ValidationError in the
 * source; here each Make function returns Failure with the offending fields
 * in declaration order.
 */
module Schemas {
  import opened Wrappers
  import opened Strings

  datatype SentimentType = Positive | Negative | Neutral | Mixed {
    /** The enum's string value. */
    function Value(): string {
      match this
      case Positive => "positive"
      case Negative => "negative"
      case Neutral => "neutral"
      case Mixed => "mixed"
    }
  }

  /** The names of the fields whose constraints a construction broke. */
  datatype ValidationError = ValidationError(fields: seq<string>)

  /** `field` if `ok` is false, and nothing otherwise. */
  function Check(ok: bool, field: string): seq<string> {
    if ok then [] else [field]
  }

  function Validate<T>(value: T, broken: seq<string>): (r: Result<T, ValidationError>)
    ensures r.Success? <==> broken == []
    ensures r.Success? ==> r.value == value
    ensures r.Failure? ==> r.error.fields == broken
  {
    if broken == [] then Success(value) else Failure(ValidationError(broken))
  }

  // ---------------------------------------------------------------- NewsSource

  datatype NewsSource = NewsSource(name: string, url: string, apiKey: Option<string>, enabled: bool, priority: int)

  predicate ValidSource(s: NewsSource) {
    1 <= |s.name| <= 100 && 1 <= s.priority <= 10
  }

  /** `NewsSource(...)`, with the model's defaults: no key, enabled, priority 1. */
  function MakeNewsSource(name: string, url: string, apiKey: Option<string> := None, enabled: bool := true,
                          priority: int := 1): (r: Result<NewsSource, ValidationError>)
    ensures r.Success? <==> 1 <= |name| <= 100 && 1 <= priority <= 10
    ensures r.Success? ==> ValidSource(r.value) && r.value == NewsSource(name, url, apiKey, enabled, priority)
    ensures r.Failure? ==> ("name" in r.error.fields <==> !(1 <= |name| <= 100))
    ensures r.Failure? ==> ("priority" in r.error.fields <==> !(1 <= priority <= 10))
  {
    Validate(NewsSource(name, url, apiKey, enabled, priority),
             Check(1 <= |name| <= 100, "name") + Check(1 <= priority <= 10, "priority"))
  }

  /** With the defaults only the name can be wrong, and the source starts enabled at priority 1. */
  lemma SourceDefaults(name: string, url: string)
    ensures MakeNewsSource(name, url).Success? <==> 1 <= |name| <= 100
    ensures MakeNewsSource(name, url).Success? ==>
              var s := MakeNewsSource(name, url).value;
              s.enabled && s.priority == 1 && s.apiKey.None?
  {
  }

  // ---------------------------------------------------------------- NewsArticle

  /** A news article; the two timestamps, filled from the clock, are not modelled. */
  datatype NewsArticle = NewsArticle(
    title: string,
    summary: string,
    content: Option<string>,
    url: Option<string>,
    source: string,
    author: Option<string>,
    imageUrl: Option<string>,
    tags: seq<string>)

  predicate ValidArticle(a: NewsArticle) {
    1 <= |a.title| <= 500 && |a.summary| <= 2000 && 1 <= |a.source|
  }

  /** `NewsArticle(...)`: summary defaults to "", the optional fields to None, tags to []. */
  function MakeNewsArticle(title: string, source: string, summary: string := "", content: Option<string> := None,
                           url: Option<string> := None, author: Option<string> := None,
                           imageUrl: Option<string> := None, tags: seq<string> := []): (r: Result<NewsArticle, ValidationError>)
    ensures r.Success? <==> 1 <= |title| <= 500 && |summary| <= 2000 && 1 <= |source|
    ensures r.Success? ==> ValidArticle(r.value)
    ensures r.Success? ==> r.value == NewsArticle(title, summary, content, url, source, author, imageUrl, tags)
    ensures r.Failure? ==> ("title" in r.error.fields <==> !(1 <= |title| <= 500))
    ensures r.Failure? ==> ("source" in r.error.fields <==> |source| == 0)
  {
    Validate(NewsArticle(title, summary, content, url, source, author, imageUrl, tags),
             Check(1 <= |title| <= 500, "title") + Check(|summary| <= 2000, "summary") + Check(1 <= |source|, "source"))
  }

  /** A minimal article gets an empty summary and no tags. */
  lemma MinimalArticle(title: string, source: string)
    requires 1 <= |title| <= 500 && 1 <= |source|
    ensures MakeNewsArticle(title, source).Success?
    ensures MakeNewsArticle(title, source).value.summary == ""
    ensures MakeNewsArticle(title, source).value.tags == []
  {
  }

  // ---------------------------------------------------------------- SentimentResult

  datatype SentimentResult = SentimentResult(
    articleId: string, sentiment: SentimentType, score: real, confidence: real, keywords: seq<string>)

  predicate ValidSentiment(r: SentimentResult) {
    -1.0 <= r.score <= 1.0 && 0.0 <= r.confidence <= 1.0
  }

  /** `SentimentResult(...)`: neutral, score 0.0, confidence 0.0 and no keywords unless given. */
  function MakeSentimentResult(articleId: string, sentiment: SentimentType := Neutral, score: real := 0.0,
                               confidence: real := 0.0, keywords: seq<string> := []): (r: Result<SentimentResult, ValidationError>)
    ensures r.Success? <==> -1.0 <= score <= 1.0 && 0.0 <= confidence <= 1.0
    ensures r.Success? ==> ValidSentiment(r.value)
    ensures r.Success? ==> r.value == SentimentResult(articleId, sentiment, score, confidence, keywords)
  {
    Validate(SentimentResult(articleId, sentiment, score, confidence, keywords),
             Check(-1.0 <= score <= 1.0, "score") + Check(0.0 <= confidence <= 1.0, "confidence"))
  }

  // ---------------------------------------------------------------- AnalysisResult

  predicate ValidAnalysis(articleCount: int, avgSentiment: real) {
    articleCount >= 0 && -1.0 <= avgSentiment <= 1.0
  }

  /** The analysis a crew run produces; add_insight updates it in place. */
  class AnalysisResult {
    var articleCount: int
    var avgSentiment: real
    var topics: seq<string>
    var insights: seq<string>
    var rawArticles: seq<NewsArticle>

    predicate Valid()
      reads this
    {
      ValidAnalysis(articleCount, avgSentiment)
    }

    /** `AnalysisResult()` with every default. */
    constructor ()
      ensures Valid()
      ensures articleCount == 0 && avgSentiment == 0.0
      ensures topics == [] && insights == [] && rawArticles == []
    {
      articleCount, avgSentiment := 0, 0.0;
      topics, insights, rawArticles := [], [], [];
    }

    /** Field assignment once validation has passed. */
    constructor Of(articleCount: int, avgSentiment: real, topics: seq<string>, insights: seq<string>,
                   rawArticles: seq<NewsArticle>)
      ensures this.articleCount == articleCount && this.avgSentiment == avgSentiment
      ensures this.topics == topics && this.insights == insights && this.rawArticles == rawArticles
    {
      this.articleCount, this.avgSentiment := articleCount, avgSentiment;
      this.topics, this.insights, this.rawArticles := topics, insights, rawArticles;
    }

    /** `self.insights.append(insight)`. */
    method AddInsight(insight: string)
      modifies this`insights
      ensures insights == old(insights) + [insight]
      ensures articleCount == old(articleCount) && avgSentiment == old(avgSentiment)
      ensures topics == old(topics) && rawArticles == old(rawArticles)
      ensures old(Valid()) ==> Valid()
    {
      insights := insights + [insight];
    }

    /**
     * get_summary; `fmt2` renders the average as `:.2f` does. Only the
     * first five topics are listed.
     */
    function Summary(fmt2: real -> string): (s: string)
      reads this
      ensures StartsWith(s, "Analyzed " + IntToString(articleCount) + " articles. ")
    {
      "Analyzed " + IntToString(articleCount) + " articles. "
      + "Average sentiment: " + fmt2(avgSentiment) + ". "
      + "Key topics: " + Join(Take(topics, 5), ", ") + "."
    }
  }

  /** `AnalysisResult(...)` with explicit values: a fresh object, or ValidationError. */
  method CreateAnalysisResult(articleCount: int, avgSentiment: real, topics: seq<string>, insights: seq<string>,
                              rawArticles: seq<NewsArticle>)
    returns (r: Result<AnalysisResult, ValidationError>)
    ensures r.Success? <==> ValidAnalysis(articleCount, avgSentiment)
    ensures r.Success? ==> fresh(r.value) && r.value.Valid()
    ensures r.Success? ==> r.value.articleCount == articleCount && r.value.avgSentiment == avgSentiment
    ensures r.Success? ==> r.value.topics == topics && r.value.insights == insights
    ensures r.Success? ==> r.value.rawArticles == rawArticles
    ensures r.Failure? ==> r.error.fields == Check(articleCount >= 0, "article_count")
                                           + Check(-1.0 <= avgSentiment <= 1.0, "avg_sentiment")
  {
    var broken := Check(articleCount >= 0, "article_count") + Check(-1.0 <= avgSentiment <= 1.0, "avg_sentiment");
    if broken == [] {
      var a := new AnalysisResult.Of(articleCount, avgSentiment, topics, insights, rawArticles);
      r := Success(a);
    } else {
      r := Failure(ValidationError(broken));
    }
  }

  /** The summary shows the average sentiment as `fmt2` renders it. */
  lemma SummaryMentionsAverage(a: AnalysisResult, fmt2: real -> string)
    ensures IsInfix(fmt2(a.avgSentiment), a.Summary(fmt2))
  {
    var avg := fmt2(a.avgSentiment);
    var before := "Analyzed " + IntToString(a.articleCount) + " articles. " + "Average sentiment: ";
    InfixOfSelf(avg);
    InfixLeft(avg, avg, before);
    InfixRight(avg, before + avg, ". ");
    InfixRight(avg, before + avg + ". ", "Key topics: ");
    InfixRight(avg, before + avg + ". " + "Key topics: ", Join(Take(a.topics, 5), ", "));
    InfixRight(avg, before + avg + ". " + "Key topics: " + Join(Take(a.topics, 5), ", "), ".");
  }

  /** The summary names each of the first five topics and the article count. */
  lemma SummaryMentions(a: AnalysisResult, fmt2: real -> string, k: int)
    requires 0 <= k < Min(5, |a.topics|)
    ensures IsInfix(a.topics[k], a.Summary(fmt2))
    ensures IsInfix(IntToString(a.articleCount) + " articles", a.Summary(fmt2))
  {
    var count := IntToString(a.articleCount);
    var head := "Analyzed " + count + " articles. " + "Average sentiment: " + fmt2(a.avgSentiment) + ". " + "Key topics: ";
    var shown := Take(a.topics, 5);
    JoinMentionsEachPart(shown, ", ", k);
    InfixLeft(a.topics[k], Join(shown, ", "), head);
    InfixRight(a.topics[k], head + Join(shown, ", "), ".");
    var s := a.Summary(fmt2);
    var p := "Analyzed " + count + " articles. ";
    assert s[..|p|] == p;
    assert p[9..9 + |count| + 9] == count + " articles";
    assert OccursAt(s, count + " articles", 9);
  }

  /** With two or more topics shown, they are separated by ", ". */
  lemma SummaryJoinsTopicsWithComma(a: AnalysisResult, fmt2: real -> string)
    ensures Min(5, |a.topics|) >= 2 ==> IsInfix(", ", a.Summary(fmt2))
  {
    var shown := Take(a.topics, 5);
    if |shown| >= 2 {
      var head := "Analyzed " + IntToString(a.articleCount) + " articles. "
                  + "Average sentiment: " + fmt2(a.avgSentiment) + ". " + "Key topics: ";
      JoinHasSeparator(shown, ", ");
      InfixLeft(", ", Join(shown, ", "), head);
      InfixRight(", ", head + Join(shown, ", "), ".");
    }
  }

  /** Topics after the fifth never reach the summary. */
  lemma SummaryUsesFirstFiveTopics(a: AnalysisResult, b: AnalysisResult, fmt2: real -> string)
    requires a.articleCount == b.articleCount && a.avgSentiment == b.avgSentiment
    requires Take(a.topics, 5) == Take(b.topics, 5)
    ensures a.Summary(fmt2) == b.Summary(fmt2)
  {
  }

  // ---------------------------------------------------------------- CrewTaskResult

  datatype CrewTaskResult = CrewTaskResult(
    taskName: string, agentRole: string, output: string, success: bool, executionTime: real, error: Option<string>)

  /** `CrewTaskResult(...)`: empty output, successful, zero time and no error unless given. */
  function MakeCrewTaskResult(taskName: string, agentRole: string, output: string := "", success: bool := true,
                              executionTime: real := 0.0, error: Option<string> := None): (r: Result<CrewTaskResult, ValidationError>)
    ensures r.Success? <==> executionTime >= 0.0
    ensures r.Success? ==> r.value == CrewTaskResult(taskName, agentRole, output, success, executionTime, error)
    ensures r.Failure? ==> r.error.fields == ["execution_time"]
  {
    Validate(CrewTaskResult(taskName, agentRole, output, success, executionTime, error),
             Check(executionTime >= 0.0, "execution_time"))
  }
}

=== FILE: scraper.dfy ===
/**
 * tools/scraper.py: the placeholder scraping tools. scrape_article returns a
 * fixed sample article carrying the given url; batch_scrape scrapes a prefix
 * of the url list, in order, keeping the articles that came back.
 */
module Scraper {
  import opened Wrappers
  import opened Strings
  import opened Schemas

  /** scrape_article. Its declared result may be None, but it never is. */
  function ScrapeArticle(url: string): (r: Option<NewsArticle>)
    ensures r.Some? && r.value.url == Some(url)
    ensures r.Some? ==> ValidArticle(r.value)
  {
    Some(NewsArticle("Sample Article Title", "This is the article excerpt...",
                     Some("Full article content would be extracted here."), Some(url), "Extracted Source",
                     None, None, []))
  }

  /** extract_content; `now` is `datetime.now().isoformat()`. */
  function ExtractContent(html: string, now: string): (r: map<string, string>)
    ensures r.Keys == {"title", "content", "author", "date"}
    ensures r["author"] == "Unknown" && r["date"] == now
  {
    map["title" := "Extracted Title", "content" := "Extracted content...", "author" := "Unknown", "date" := now]
  }

  /** The articles scraping `urls` in order yields, skipping those that come back as None. */
  function Scraped(urls: seq<string>): seq<NewsArticle>
    decreases |urls|
  {
    if urls == [] then []
    else
      var found := ScrapeArticle(urls[|urls| - 1]);
      Scraped(urls[..|urls| - 1]) + (if found.Some? then [found.value] else [])
  }

  /** Since no scrape fails, one article per url survives, carrying that url. */
  lemma {:induction false} ScrapedKeepsEveryUrl(urls: seq<string>)
    ensures |Scraped(urls)| == |urls|
    ensures forall i :: 0 <= i < |urls| ==> Scraped(urls)[i].url == Some(urls[i])
    decreases |urls|
  {
    if urls != [] {
      var init := urls[..|urls| - 1];
      ScrapedKeepsEveryUrl(init);
      assert forall i :: 0 <= i < |init| ==> init[i] == urls[i];
    }
  }

  /** batch_scrape: only `urls[:max_concurrent]` is looked at. */
  method BatchScrape(urls: seq<string>, maxConcurrent: int := 5) returns (articles: seq<NewsArticle>)
    ensures articles == Scraped(Take(urls, maxConcurrent))
    ensures 0 <= maxConcurrent ==> |articles| == Min(|urls|, maxConcurrent)
    ensures maxConcurrent < 0 ==> |articles| == Max(0, |urls| + maxConcurrent)
    ensures forall i :: 0 <= i < |articles| ==> articles[i].url == Some(urls[i])
  {
    var batch := Take(urls, maxConcurrent);
    articles := [];
    for i := 0 to |batch|
      invariant articles == Scraped(batch[..i])
    {
      var article := ScrapeArticle(batch[i]);
      if article.Some? {
        articles := articles + [article.value];
      }
      assert batch[..i + 1][..i] == batch[..i];
    }
    assert batch[..|batch|] == batch;
    ScrapedKeepsEveryUrl(batch);
  }
}

=== FILE: search.dfy ===
/**
 * tools/search.py: the placeholder search tools. search_news builds one
 * sample article around the query whatever the limit; search_by_keyword
 * checks its operator and joins the keywords into one query.
 */
module Search {
  import opened Wrappers
  import opened Strings
  import opened Schemas

  const TitlePrefix: string := "Sample article about "
  const SummaryPrefix: string := "This is a placeholder article about "

  /** The topics get_trending_topics reports, in order. */
  const TrendingTopics: seq<string> :=
    ["artificial intelligence", "machine learning", "large language models", "robotics", "autonomous vehicles"]

  /**
   * search_news. `maxResults` and `timeRange` are not consulted. The sample
   * article's title must fit NewsArticle's 500 characters, so a query longer
   * than 479 characters raises ValidationError.
   */
  function SearchNews(query: string, maxResults: int := 10, timeRange: string := "24h"): (r: Result<seq<NewsArticle>, ValidationError>)
    ensures r.Success? <==> |query| <= 500 - |TitlePrefix|
    ensures r.Success? ==> |r.value| == 1 && r.value[0].tags == [query] && ValidArticle(r.value[0])
    ensures r.Success? && maxResults >= 1 ==> |r.value| <= maxResults
    ensures r.Failure? ==> "title" in r.error.fields
  {
    match MakeNewsArticle(TitlePrefix + query, "Placeholder Source", SummaryPrefix + query + ".", tags := [query])
    case Success(article) => Success([article])
    case Failure(e) => Failure(e)
  }

  /** The sample article's title mentions the query. */
  lemma SearchTitleMentionsQuery(query: string, maxResults: int, timeRange: string)
    requires SearchNews(query, maxResults, timeRange).Success?
    ensures IsInfix(query, SearchNews(query, maxResults, timeRange).value[0].title)
  {
    InfixOfSelf(query);
    InfixLeft(query, query, TitlePrefix);
  }

  /** The errors search_by_keyword can raise: ValueError with its message, or the search's ValidationError. */
  datatype SearchError = ValueError(message: string) | Invalid(error: ValidationError)

  /** The ValueError message for an operator other than AND and OR. */
  function OperatorMessage(operator: string): string {
    "Invalid operator: " + operator + ". Must be AND or OR."
  }

  lemma EveryKeywordJoined(keywords: seq<string>, sep: string)
    ensures forall k :: 0 <= k < |keywords| ==> IsInfix(keywords[k], Join(keywords, sep))
  {
    forall k | 0 <= k < |keywords|
      ensures IsInfix(keywords[k], Join(keywords, sep))
    {
      JoinMentionsEachPart(keywords, sep, k);
    }
  }

  /** The query search_by_keyword sends: the keywords joined by the operator. */
  function CombinedQuery(keywords: seq<string>, operator: string): (q: string)
    ensures keywords == [] ==> q == ""
    ensures |keywords| == 1 ==> q == keywords[0]
    ensures forall k :: 0 <= k < |keywords| ==> IsInfix(keywords[k], q)
    ensures |keywords| >= 2 ==> IsInfix(" " + operator + " ", q)
  {
    EveryKeywordJoined(keywords, " " + operator + " ");
    JoinHasSeparator(keywords, " " + operator + " ");
    Join(keywords, " " + operator + " ")
  }

  /** search_by_keyword. */
  function SearchByKeyword(keywords: seq<string>, operator: string := "AND", maxResults: int := 10): (r: Result<seq<NewsArticle>, SearchError>)
    ensures operator != "AND" && operator != "OR" ==> r == Failure(ValueError(OperatorMessage(operator)))
    ensures (operator == "AND" || operator == "OR") ==>
              match SearchNews(CombinedQuery(keywords, operator), maxResults)
              case Success(found) => r == Success(found)
              case Failure(e) => r == Failure(Invalid(e))
  {
    if operator != "AND" && operator != "OR" then Failure(ValueError(OperatorMessage(operator)))
    else
      match SearchNews(CombinedQuery(keywords, operator), maxResults)
      case Success(found) => Success(found)
      case Failure(e) => Failure(Invalid(e))
  }

  /** A successful keyword search returns one article whose title names every keyword. */
  lemma KeywordSearchMentionsEveryKeyword(keywords: seq<string>, operator: string, maxResults: int, k: int)
    requires SearchByKeyword(keywords, operator, maxResults).Success?
    requires 0 <= k < |keywords|
    ensures |SearchByKeyword(keywords, operator, maxResults).value| == 1
    ensures IsInfix(keywords[k], SearchByKeyword(keywords, operator, maxResults).value[0].title)
  {
    var query := CombinedQuery(keywords, operator);
    JoinMentionsEachPart(keywords, " " + operator + " ", k);
    InfixLeft(keywords[k], query, TitlePrefix);
  }

  /** get_trending_topics: the category is not consulted. */
  function GetTrendingTopics(category: Option<string> := None): (r: seq<string>)
    ensures |r| == 5
    ensures r == TrendingTopics
  {
    TrendingTopics
  }
}

=== FILE: strings.dfy ===
/**
 * The few pieces of Python's sequence and string semantics that the
 * dashboard relies on: the `s[:n]` slice, `sep.join(parts)`, the `in`
 * substring test, `str(int)`, `str.lower()` and `str.strip()`.
 */
module Strings {

  function Min(a: int, b: int): int { if a <= b then a else b }
  function Max(a: int, b: int): int { if a <= b then b else a }

  /** Python's `s[:n]`: a prefix of `s`; a negative `n` drops `-n` elements from the end. */
  function Take<T>(s: seq<T>, n: int): (r: seq<T>)
    ensures r <= s
    ensures 0 <= n ==> |r| == Min(n, |s|)
    ensures n < 0 ==> |r| == Max(0, |s| + n)
  {
    if 0 <= n then s[..Min(n, |s|)] else s[..Max(0, |s| + n)]
  }

  /** `needle` occurs in `hay` starting at index `i`. */
  ghost predicate OccursAt(hay: string, needle: string, i: int) {
    0 <= i && i + |needle| <= |hay| && hay[i..i + |needle|] == needle
  }

  /** Python's `needle in hay` for two strings. */
  ghost predicate IsInfix(needle: string, hay: string) {
    exists i :: OccursAt(hay, needle, i)
  }

  lemma InfixOfSelf(s: string)
    ensures IsInfix(s, s)
  {
    assert OccursAt(s, s, 0);
  }

  lemma OccursAtLeft(hay: string, needle: string, i: int, p: string)
    requires OccursAt(hay, needle, i)
    ensures OccursAt(p + hay, needle, |p| + i)
  {
    assert (p + hay)[|p| + i..|p| + i + |needle|] == hay[i..i + |needle|];
  }

  lemma OccursAtRight(hay: string, needle: string, i: int, s: string)
    requires OccursAt(hay, needle, i)
    ensures OccursAt(hay + s, needle, i)
  {
    assert (hay + s)[i..i + |needle|] == hay[i..i + |needle|];
  }

  lemma InfixLeft(needle: string, hay: string, p: string)
    requires IsInfix(needle, hay)
    ensures IsInfix(needle, p + hay)
  {
    var i :| OccursAt(hay, needle, i);
    OccursAtLeft(hay, needle, i, p);
  }

  lemma InfixRight(needle: string, hay: string, s: string)
    requires IsInfix(needle, hay)
    ensures IsInfix(needle, hay + s)
  {
    var i :| OccursAt(hay, needle, i);
    OccursAtRight(hay, needle, i, s);
  }

  predicate StartsWith(s: string, prefix: string) {
    |prefix| <= |s| && s[..|prefix|] == prefix
  }

  /** An executable substring test, scanning `hay` from the left. */
  function Contains(hay: string, needle: string): bool
    decreases |hay|
  {
    StartsWith(hay, needle) || (hay != [] && Contains(hay[1..], needle))
  }

  /** The scanning test agrees with the definition of a substring. */
  lemma {:induction false} ContainsIsInfix(hay: string, needle: string)
    ensures Contains(hay, needle) <==> IsInfix(needle, hay)
    decreases |hay|
  {
    if hay != [] {
      ContainsIsInfix(hay[1..], needle);
    }
    if Contains(hay, needle) {
      if StartsWith(hay, needle) {
        assert OccursAt(hay, needle, 0);
      } else {
        var i :| OccursAt(hay[1..], needle, i);
        assert hay[i + 1..i + 1 + |needle|] == hay[1..][i..i + |needle|];
        assert OccursAt(hay, needle, i + 1);
      }
    }
    if IsInfix(needle, hay) {
      var i :| OccursAt(hay, needle, i);
      if 0 < i {
        assert hay[1..][i - 1..i - 1 + |needle|] == hay[i..i + |needle|];
        assert OccursAt(hay[1..], needle, i - 1);
      }
    }
  }

  /** Python's `sep.join(parts)`. */
  function Join(parts: seq<string>, sep: string): string
    decreases |parts|
  {
    if |parts| == 0 then ""
    else if |parts| == 1 then parts[0]
    else Join(parts[..|parts| - 1], sep) + sep + parts[|parts| - 1]
  }

  /** Every part of a join appears in the joined text. */
  /** Two or more parts are joined with the separator between them. */
  lemma JoinHasSeparator(parts: seq<string>, sep: string)
    ensures |parts| >= 2 ==> IsInfix(sep, Join(parts, sep))
  {
    if |parts| >= 2 {
      var init := Join(parts[..|parts| - 1], sep);
      InfixOfSelf(sep);
      InfixLeft(sep, sep, init);
      InfixRight(sep, init + sep, parts[|parts| - 1]);
    }
  }

  lemma {:induction false} JoinMentionsEachPart(parts: seq<string>, sep: string, k: int)
    requires 0 <= k < |parts|
    ensures IsInfix(parts[k], Join(parts, sep))
    decreases |parts|
  {
    var init := parts[..|parts| - 1];
    if |parts| == 1 {
      InfixOfSelf(parts[0]);
    } else if k == |parts| - 1 {
      InfixOfSelf(parts[k]);
      InfixLeft(parts[k], parts[k], Join(init, sep) + sep);
    } else {
      JoinMentionsEachPart(init, sep, k);
      InfixRight(parts[k], Join(init, sep), sep);
      InfixRight(parts[k], Join(init, sep) + sep, parts[|parts| - 1]);
    }
  }

  /** Decimal digits of a natural number, as `str(n)` prints them. */
  function NatToString(n: nat): (r: string)
    ensures |r| >= 1
    ensures forall i :: 0 <= i < |r| ==> '0' <= r[i] <= '9'
    decreases n
  {
    if n < 10 then [Digit(n)] else NatToString(n / 10) + [Digit(n % 10)]
  }

  function Digit(d: nat): (c: char)
    requires d < 10
    ensures '0' <= c <= '9'
  {
    ['0', '1', '2', '3', '4', '5', '6', '7', '8', '9'][d]
  }

  function DigitValue(c: char): nat
    requires '0' <= c <= '9'
  {
    (c as int) - ('0' as int)
  }

  function ParseNat(s: string): nat
    requires forall i :: 0 <= i < |s| ==> '0' <= s[i] <= '9'
    decreases |s|
  {
    if s == [] then 0 else 10 * ParseNat(s[..|s| - 1]) + DigitValue(s[|s| - 1])
  }

  /** `str(n)` loses nothing: the printed digits read back as `n`. */
  lemma {:induction false} NatToStringRoundTrip(n: nat)
    ensures ParseNat(NatToString(n)) == n
    decreases n
  {
    var r := NatToString(n);
    if n < 10 {
      assert r[..|r| - 1] == [];
    } else {
      NatToStringRoundTrip(n / 10);
      assert r[..|r| - 1] == NatToString(n / 10);
    }
  }

  /** Python's `str(n)` for any integer. */
  function IntToString(n: int): (r: string)
    ensures |r| >= 1
  {
    if n < 0 then "-" + NatToString(-n) else NatToString(n)
  }

  /** `str.lower()` on one character; only the ASCII letters A-Z are mapped. */
  function LowerChar(c: char): char {
    if 'A' <= c <= 'Z' then (c as int + 32) as char else c
  }

  function Lower(s: string): (r: string)
    ensures |r| == |s|
    ensures forall i :: 0 <= i < |s| ==> r[i] == LowerChar(s[i])
  {
    seq(|s|, i requires 0 <= i < |s| => LowerChar(s[i]))
  }

  /** The characters Python's `str.isspace()` and `str.strip()` treat as whitespace. */
  predicate IsSpace(c: char) {
    c == ' ' || ('\t' <= c <= '\r') || ('\U{1C}' <= c <= '\U{1F}')
    || c == '\U{85}' || c == '\U{A0}' || c == '\U{1680}'
    || ('\U{2000}' <= c <= '\U{200A}') || c == '\U{2028}' || c == '\U{2029}'
    || c == '\U{202F}' || c == '\U{205F}' || c == '\U{3000}'
  }

  /** `not s.strip()`: the string is empty or all whitespace. */
  predicate IsBlank(s: string) {
    forall i :: 0 <= i < |s| ==> IsSpace(s[i])
  }
}

=== FILE: utils.dfy ===
/**
 * utils.py: the NewsAPI fetcher with its outcome classification, the VADER
 * sentiment threshold rule and the date fallback used by the dashboard.
 *
 * The HTTP call, JSON decoding, VADER's lexicon scoring and dateutil's
 * ISO parsing are foreign code: they enter as function-valued parameters.
 */
module Utils {
  import opened Wrappers
  import opened Strings

  // Constants read from config.py.
  const BaseUrl: string := "https://newsapi.org/v2/everything"
  const ThresholdPositive: real := 0.05
  const ThresholdNegative: real := -0.05

  /** The largest page size NewsAPI accepts. */
  const MaxPageSize: int := 100
  /** Seconds `requests.get` waits before giving up. */
  const TimeoutSeconds: nat := 15

  /** One element of the API's `articles` array; None stands for a missing key or a JSON null. */
  datatype ArticleRecord = ArticleRecord(
    title: Option<string>,
    description: Option<string>,
    url: Option<string>,
    urlToImage: Option<string>,
    sourceName: Option<string>,
    publishedAt: Option<string>)

  /** The single GET request: endpoint, query parameters and timeout. */
  datatype Request = Request(
    url: string, q: string, apiKey: string, pageSize: int, sortBy: string, language: string, timeout: nat)

  /** What `response.json()` makes of a body, as far as fetch_news reads it. */
  datatype Body =
    | NotJson                    // json.JSONDecodeError
    | NotObject(detail: string)  // valid JSON without `.get`, so an AttributeError with this text
    | Object(status: Option<string>, code: Option<string>, message: Option<string>,
             articles: Option<seq<ArticleRecord>>)

  /** What `requests.get` does: raise one of four exception kinds, or return a response. */
  datatype Outcome =
    | Timeout
    | ConnectionFailure
    | NetworkFailure(detail: string)     // any other requests.exceptions.RequestException
    | UnexpectedFailure(detail: string)  // any other exception
    | Response(status: int, reason: string, body: Body)

  /** The message kinds fetch_news can put in its error list. */
  datatype Notice =
    | MissingKey
    | NoNews(topic: string, language: string)
    | ApiError(code: Option<string>, message: Option<string>)
    | InvalidJson
    | BadRequest
    | Unauthorized
    | RateLimited
    | ServerError(status: int)
    | HttpError(status: int, reason: string)
    | TimedOut
    | CannotConnect
    | NetworkError(detail: string)
    | UnexpectedError(detail: string)

  /** Python's f-string rendering of a field read with `dict.get`. */
  function PyStr(v: Option<string>): string {
    match v
    case None => "None"
    case Some(s) => s
  }

  const ErrorMark: string := "❌ "
  const InfoMark: string := "\U{2139}\U{FE0F} "

  /** The exact text fetch_news appends for each notice: a mark, then the message. */
  function Text(n: Notice): (r: string)
    ensures |r| == |Mark(n)| + |Detail(n)|
    ensures r[..|Mark(n)|] == Mark(n) && r[|Mark(n)|..] == Detail(n)
  {
    Mark(n) + Detail(n)
  }

  function Mark(n: Notice): string {
    if n.NoNews? then InfoMark else ErrorMark
  }

  function Detail(n: Notice): string {
    match n
    case MissingKey =>
      "Error: NewsAPI key not found. Please check your .env file or set up Streamlit secrets."
    case NoNews(topic, language) =>
      "No news found for topic '" + topic + "' in language '" + language + "'."
    case ApiError(code, message) =>
      "NewsAPI Error: " + PyStr(code) + " - " + PyStr(message)
    case InvalidJson =>
      "Error: Response from NewsAPI is not in valid JSON format."
    case BadRequest =>
      "API Error (400): Invalid request parameters. Please check your inputs."
    case Unauthorized =>
      "API Error (401): Invalid API key. Please verify your key."
    case RateLimited =>
      "API Error (429): Too many requests. Please wait and try again (rate limit exceeded)."
    case ServerError(status) =>
      "Server Error (" + IntToString(status)
      + "): NewsAPI server may be temporarily unavailable. Please try again later."
    case HttpError(status, reason) =>
      "HTTP Error: " + IntToString(status) + " - " + reason
    case TimedOut =>
      "Error: Request to NewsAPI timed out."
    case CannotConnect =>
      "Error: Could not connect to NewsAPI. Please check your internet connection."
    case NetworkError(detail) =>
      "General Network Error: " + detail
    case UnexpectedError(detail) =>
      "Unexpected Error: " + detail
  }

  /** Only the zero-results notice is informational; every other text is marked as an error. */
  lemma {:induction false} InformationalIsDistinguishable(n: Notice)
    ensures StartsWith(Text(n), InfoMark) <==> n.NoNews?
    ensures StartsWith(Text(n), ErrorMark) <==> !n.NoNews?
  {
    assert Text(n)[..|Mark(n)|] == Mark(n);
    assert InfoMark[0] != ErrorMark[0];
  }

  /** The API's own error code and message both reach the user. */
  lemma ApiErrorNamesCodeAndMessage(code: Option<string>, message: Option<string>)
    ensures IsInfix(PyStr(code), Text(ApiError(code, message)))
    ensures IsInfix(PyStr(message), Text(ApiError(code, message)))
  {
    var head, sep := "NewsAPI Error: ", " - ";
    InfixOfSelf(PyStr(code));
    InfixLeft(PyStr(code), PyStr(code), head);
    InfixRight(PyStr(code), head + PyStr(code), sep);
    InfixRight(PyStr(code), head + PyStr(code) + sep, PyStr(message));
    InfixLeft(PyStr(code), head + PyStr(code) + sep + PyStr(message), ErrorMark);
    InfixOfSelf(PyStr(message));
    InfixLeft(PyStr(message), PyStr(message), head + PyStr(code) + sep);
    InfixLeft(PyStr(message), head + PyStr(code) + sep + PyStr(message), ErrorMark);
  }

  /** The zero-results notice names the topic and the language searched. */
  lemma NoNewsNamesTopicAndLanguage(topic: string, language: string)
    ensures IsInfix(topic, Text(NoNews(topic, language)))
    ensures IsInfix(language, Text(NoNews(topic, language)))
  {
    var head, mid, tail := "No news found for topic '", "' in language '", "'.";
    InfixOfSelf(topic);
    InfixLeft(topic, topic, head);
    InfixRight(topic, head + topic, mid);
    InfixRight(topic, head + topic + mid, language);
    InfixRight(topic, head + topic + mid + language, tail);
    InfixLeft(topic, head + topic + mid + language + tail, InfoMark);
    InfixOfSelf(language);
    InfixLeft(language, language, head + topic + mid);
    InfixRight(language, head + topic + mid + language, tail);
    InfixLeft(language, head + topic + mid + language + tail, InfoMark);
  }

  /** The message for any other network exception passes the exception's text on. */
  lemma NetworkErrorNamesDetail(detail: string)
    ensures IsInfix(detail, Text(NetworkError(detail)))
  {
    InfixOfSelf(detail);
    InfixLeft(detail, detail, "General Network Error: ");
    InfixLeft(detail, "General Network Error: " + detail, ErrorMark);
  }

  /** The message for an unexpected exception passes the exception's text on. */
  lemma UnexpectedErrorNamesDetail(detail: string)
    ensures IsInfix(detail, Text(UnexpectedError(detail)))
  {
    InfixOfSelf(detail);
    InfixLeft(detail, detail, "Unexpected Error: ");
    InfixLeft(detail, "Unexpected Error: " + detail, ErrorMark);
  }

  /** Any other HTTP error reports the status code and the reason phrase. */
  lemma HttpErrorNamesStatusAndReason(status: int, reason: string)
    ensures IsInfix(IntToString(status), Text(HttpError(status, reason)))
    ensures IsInfix(reason, Text(HttpError(status, reason)))
  {
    var head, code := "HTTP Error: ", IntToString(status);
    InfixOfSelf(code);
    InfixLeft(code, code, head);
    InfixRight(code, head + code, " - ");
    InfixRight(code, head + code + " - ", reason);
    InfixLeft(code, head + code + " - " + reason, ErrorMark);
    InfixOfSelf(reason);
    InfixLeft(reason, reason, head + code + " - ");
    InfixLeft(reason, head + code + " - " + reason, ErrorMark);
  }

  /** A server error reports the status code it received. */
  lemma ServerErrorNamesStatus(status: int)
    ensures IsInfix(IntToString(status), Text(ServerError(status)))
  {
    var head, tail := "Server Error (", "): NewsAPI server may be temporarily unavailable. Please try again later.";
    InfixOfSelf(IntToString(status));
    InfixLeft(IntToString(status), IntToString(status), head);
    InfixRight(IntToString(status), head + IntToString(status), tail);
    InfixLeft(IntToString(status), head + IntToString(status) + tail, ErrorMark);
  }

  /** Python's truth test on an optional string: None and the empty string are false. */
  predicate Truthy(v: Option<string>) {
    v.Some? && v.value != ""
  }

  /** The request fetch_news sends; the page size is capped at what the API allows. */
  function RequestFor(apiKey: string, topic: string, language: string, pageSize: int, sortBy: string): (r: Request)
    ensures r.pageSize == Min(pageSize, MaxPageSize)
    ensures r.pageSize <= MaxPageSize && (pageSize <= MaxPageSize ==> r.pageSize == pageSize)
    ensures r.q == topic && r.apiKey == apiKey && r.language == language && r.sortBy == sortBy
    ensures r.url == BaseUrl && r.timeout == TimeoutSeconds
  {
    Request(BaseUrl, topic, apiKey, Min(pageSize, MaxPageSize), sortBy, language, TimeoutSeconds)
  }

  /** The pair fetch_news returns, with its at most one message kept as a Notice. */
  datatype Fetched = Fetched(articles: seq<ArticleRecord>, notice: Option<Notice>)

  /** The texts of the error list. */
  function Messages(notice: Option<Notice>): (r: seq<string>)
    ensures |r| <= 1
    ensures notice.Some? <==> |r| == 1
  {
    if notice.Some? then [Text(notice.value)] else []
  }

  /** How fetch_news classifies the body of an HTTP 200 response. */
  function ClassifyBody(topic: string, language: string, body: Body): (r: Fetched)
    ensures r.articles != [] <==> r.notice.None?
    ensures r.articles != [] ==> body.Object? && body.status == Some("ok") && body.articles == Some(r.articles)
    ensures r.notice == Some(NoNews(topic, language)) <==>
              body.Object? && body.status == Some("ok") && body.articles.GetOr([]) == []
    ensures body.Object? && body.status != Some("ok") ==> r.notice == Some(ApiError(body.code, body.message))
    ensures body.Object? && body.status == Some("ok") && body.articles.GetOr([]) != [] ==>
              r == Fetched(body.articles.value, None)
    ensures body.NotJson? ==> r == Fetched([], Some(InvalidJson))
    ensures body.NotObject? ==> r == Fetched([], Some(UnexpectedError(body.detail)))
  {
    match body
    case NotJson => Fetched([], Some(InvalidJson))
    case NotObject(detail) => Fetched([], Some(UnexpectedError(detail)))
    case Object(status, code, message, articles) =>
      if status == Some("ok") then
        var found := articles.GetOr([]);
        if found == [] then Fetched([], Some(NoNews(topic, language))) else Fetched(found, None)
      else
        Fetched([], Some(ApiError(code, message)))
  }

  /** The notice for a response whose status is not 200; 400, 401 and 429 are tested before 500 and up. */
  function StatusNotice(status: int, reason: string): (n: Notice)
    requires status != 200
    ensures n == BadRequest <==> status == 400
    ensures n == Unauthorized <==> status == 401
    ensures n == RateLimited <==> status == 429
    ensures n.ServerError? <==> status >= 500
    ensures n.ServerError? ==> n.status == status
    ensures n.HttpError? <==> status !in {400, 401, 429} && status < 500
    ensures n.HttpError? ==> n.status == status && n.reason == reason
  {
    if status == 400 then BadRequest
    else if status == 401 then Unauthorized
    else if status == 429 then RateLimited
    else if status >= 500 then ServerError(status)
    else HttpError(status, reason)
  }

  /** How fetch_news classifies the outcome of its request. */
  function Classify(topic: string, language: string, outcome: Outcome): (r: Fetched)
    ensures r.articles != [] <==> r.notice.None?
    ensures r.articles != [] ==> outcome.Response? && outcome.status == 200
    ensures r.notice.Some? && r.notice.value.NoNews? ==> outcome.Response? && outcome.status == 200
    ensures outcome.Response? && outcome.status == 200 ==> r == ClassifyBody(topic, language, outcome.body)
    ensures outcome.Response? && outcome.status != 200 ==>
              r == Fetched([], Some(StatusNotice(outcome.status, outcome.reason)))
    ensures outcome.Timeout? ==> r == Fetched([], Some(TimedOut))
    ensures outcome.ConnectionFailure? ==> r == Fetched([], Some(CannotConnect))
    ensures outcome.NetworkFailure? ==> r == Fetched([], Some(NetworkError(outcome.detail)))
    ensures outcome.UnexpectedFailure? ==> r == Fetched([], Some(UnexpectedError(outcome.detail)))
  {
    match outcome
    case Timeout => Fetched([], Some(TimedOut))
    case ConnectionFailure => Fetched([], Some(CannotConnect))
    case NetworkFailure(detail) => Fetched([], Some(NetworkError(detail)))
    case UnexpectedFailure(detail) => Fetched([], Some(UnexpectedError(detail)))
    case Response(status, reason, body) =>
      if status == 200 then ClassifyBody(topic, language, body)
      else Fetched([], Some(StatusNotice(status, reason)))
  }

  /** The whole of fetch_news as a function of the key and of what the transport answers. */
  function FetchSpec(apiKey: Option<string>, topic: string, language: string, pageSize: int, sortBy: string,
                     send: Request -> Outcome): (r: Fetched)
    ensures (r.articles != [] && r.notice.None?) || (r.articles == [] && r.notice.Some?)
    ensures !Truthy(apiKey) ==> r == Fetched([], Some(MissingKey))
    ensures Truthy(apiKey) ==>
              r == Classify(topic, language, send(RequestFor(apiKey.value, topic, language, pageSize, sortBy)))
  {
    if !Truthy(apiKey) then Fetched([], Some(MissingKey))
    else Classify(topic, language, send(RequestFor(apiKey.value, topic, language, pageSize, sortBy)))
  }

  /** Without a key the transport is never consulted: any two transports give the same answer. */
  lemma NoKeyNoRequest(apiKey: Option<string>, topic: string, language: string, pageSize: int, sortBy: string,
                       send1: Request -> Outcome, send2: Request -> Outcome)
    requires !Truthy(apiKey)
    ensures FetchSpec(apiKey, topic, language, pageSize, sortBy, send1)
         == FetchSpec(apiKey, topic, language, pageSize, sortBy, send2)
         == Fetched([], Some(MissingKey))
  {
  }

  /**
   * fetch_news: `send` plays requests.get; `sent` records the request it was
   * asked to perform, if any.
   */
  method FetchNews(apiKey: Option<string>, send: Request -> Outcome, topic: string, language: string := "en",
                   pageSize: int := 10, sortBy: string := "relevancy")
    returns (articles: seq<ArticleRecord>, errors: seq<string>, sent: Option<Request>)
    ensures sent.None? <==> !Truthy(apiKey)
    ensures sent.Some? ==> sent.value == RequestFor(apiKey.value, topic, language, pageSize, sortBy)
    ensures sent.Some? ==> sent.value.pageSize == Min(pageSize, MaxPageSize)
    ensures (articles != [] && errors == []) || (articles == [] && |errors| == 1)
    ensures articles == FetchSpec(apiKey, topic, language, pageSize, sortBy, send).articles
    ensures errors == Messages(FetchSpec(apiKey, topic, language, pageSize, sortBy, send).notice)
  {
    if !Truthy(apiKey) {
      return [], [Text(MissingKey)], None;
    }
    var request := RequestFor(apiKey.value, topic, language, pageSize, sortBy);
    sent := Some(request);
    articles, errors := [], [];
    match send(request)
    case Response(status, reason, body) =>
      if status == 200 {
        match body
        case NotJson =>
          errors := errors + [Text(InvalidJson)];
        case NotObject(detail) =>
          errors := errors + [Text(UnexpectedError(detail))];
        case Object(st, code, message, found) =>
          if st == Some("ok") {
            articles := found.GetOr([]);
            if articles == [] {
              errors := errors + [Text(NoNews(topic, language))];
            }
          } else {
            errors := errors + [Text(ApiError(code, message))];
          }
      } else if status == 400 {
        errors := errors + [Text(BadRequest)];
      } else if status == 401 {
        errors := errors + [Text(Unauthorized)];
      } else if status == 429 {
        errors := errors + [Text(RateLimited)];
      } else if status >= 500 {
        errors := errors + [Text(ServerError(status))];
      } else {
        errors := errors + [Text(HttpError(status, reason))];
      }
    case Timeout =>
      errors := errors + [Text(TimedOut)];
    case ConnectionFailure =>
      errors := errors + [Text(CannotConnect)];
    case NetworkFailure(detail) =>
      errors := errors + [Text(NetworkError(detail))];
    case UnexpectedFailure(detail) =>
      errors := errors + [Text(UnexpectedError(detail))];
  }

  // ---------------------------------------------------------------- sentiment

  datatype Label = Positive | Negative | Neutral {
    function Name(): string {
      match this
      case Positive => "Positive"
      case Negative => "Negative"
      case Neutral => "Neutral"
    }
  }

  /** The argument of analyze_sentiment_vader: a str, or any other Python value. */
  datatype TextInput = Str(s: string) | NotStr

  /** What `polarity_scores(text)['compound']` yields, or the exception it raises. */
  datatype Polarity = Compound(score: real) | AnalyzerError(detail: string)

  /** The threshold rule: both thresholds are inclusive. */
  function LabelFor(compound: real): (l: Label)
    ensures l == Positive <==> compound >= ThresholdPositive
    ensures l == Negative <==> compound <= ThresholdNegative
    ensures l == Neutral <==> ThresholdNegative < compound < ThresholdPositive
  {
    if compound >= ThresholdPositive then Positive
    else if compound <= ThresholdNegative then Negative
    else Neutral
  }

  /** analyze_sentiment_vader, with `vader` standing for the shared analyzer's scoring. */
  function AnalyzeSentimentVader(text: TextInput, vader: string -> Polarity): (r: (Label, real))
    ensures r.0 == LabelFor(r.1)
    ensures text.NotStr? || IsBlank(text.s) ==> r == (Neutral, 0.0)
    ensures text.Str? && !IsBlank(text.s) ==>
              match vader(text.s)
              case Compound(score) => r.1 == score
              case AnalyzerError(_) => r == (Neutral, 0.0)
  {
    match text
    case NotStr => (Neutral, 0.0)
    case Str(s) =>
      if IsBlank(s) then (Neutral, 0.0)
      else
        match vader(s)
        case Compound(score) => (LabelFor(score), score)
        case AnalyzerError(_) => (Neutral, 0.0)
  }

  /** Blank input is answered without the analyzer: any two analyzers agree on it. */
  lemma BlankTextSkipsAnalyzer(s: string, vader1: string -> Polarity, vader2: string -> Polarity)
    requires IsBlank(s)
    ensures AnalyzeSentimentVader(Str(s), vader1) == AnalyzeSentimentVader(Str(s), vader2) == (Neutral, 0.0)
  {
  }

  // ---------------------------------------------------------------- dates

  /** `s.split(c)[0]`: everything before the first `c`, or all of `s` when it has none. */
  function BeforeFirst(s: string, c: char): (r: string)
    ensures r <= s
    ensures c !in r
    ensures |r| < |s| ==> s[|r|] == c
    decreases |s|
  {
    if s == [] || s[0] == c then [] else [s[0]] + BeforeFirst(s[1..], c)
  }

  /**
   * format_datetime; `isoFormat(s)` is what isoparse followed by strftime
   * renders, or None when either raises.
   */
  function FormatDatetime(date: Option<string>, isoFormat: string -> Option<string>): (r: string)
    ensures date.None? || date == Some("") ==> r == "No Date"
    ensures date.Some? && date.value != "" && isoFormat(date.value).Some? ==> r == isoFormat(date.value).value
    ensures date.Some? && date.value != "" && isoFormat(date.value).None? ==>
              r <= date.value && 'T' !in r && (|r| < |date.value| ==> date.value[|r|] == 'T')
  {
    match date
    case None => "No Date"
    case Some(s) =>
      if s == "" then "No Date"
      else
        match isoFormat(s)
        case Some(formatted) => formatted
        case None => BeforeFirst(s, 'T')
  }

  /** Without a `T` the unparseable text comes back unchanged. */
  lemma {:induction false} NoSeparatorKeepsText(s: string)
    requires 'T' !in s
    ensures BeforeFirst(s, 'T') == s
    decreases |s|
  {
    if s != [] {
      NoSeparatorKeepsText(s[1..]);
    }
  }
}

=== FILE: wrappers.dfy ===
/** Option and Result values standing in for Python's None and raised exceptions. */
module Wrappers {

  datatype Option<+T> = None | Some(value: T) {
    function GetOr(default: T): T {
      match this
      case Some(v) => v
      case None => default
    }
  }

  datatype Result<+R, +E> = Success(value: R) | Failure(error: E)
}
